=== FILE: README.md ===
# Subtitle-driven dubbing: a Dafny model

This project models the core of a small dubbing tool. The tool reads a
WebVTT subtitle file, renders each cue's text to speech, and assembles one
audio track. Each rendered cue is placed after the silence that separates it
from the previous cue. A rendering longer than its cue's slot is sped up, by
at most a configured factor. Two batch scripts scan a folder, pair videos
with subtitles, dub each pair and mux the audio into the video.

The model covers three parts:

- **The timing engine** of `gerador_de_dublagem.py`:
  - `parse_time` (module `Timestamps`);
  - the `WEBVTT` header fix-up;
  - the per-cue loop of `gerar_dublagem` (module `Dubbing`).

  The loop is a method, `Dub`, with the source's two loop variables: the
  clock and the track. Its body is the method `ProcessCue`. Both are proved
  against the pure specification `Run`, and the properties of the track are
  lemmas about `Run`.
- **Exact pairing** in `processar_lote.py` (module `ExactPairing`): videos
  and subtitles are paired by identical extension-less names. The shared
  names are processed in ascending order.
- **Prefix pairing** in `processar_lote_Inteligente.py` (module
  `PrefixPairing`): each video is paired with the first listed subtitle
  whose extension-less name starts with the video's. The pairs are
  processed in sorted tuple order.

Shared pieces:

- `Text` holds the Python string operations used: `strip` with the exact
  `str.isspace` character set, `split`, and `int()` on digit strings.
- `FileNames` holds the `.mp4`/`.vtt` suffix tests, `os.path.splitext` with
  its leading-dots rule, POSIX `os.path.join` (posixpath), Python string ordering, and the
  derived file names.
- `Batch` holds the per-pair processing loop shared by both scripts. It
  records the calls made, in order, as a trace of actions:
  - `gerar_dublagem`, with its outcome;
  - `adicionar_audio_ao_video`;
  - `os.remove`.

Conventions:

- Times are exact integer milliseconds. The source's float seconds equal the
  model's value divided by 1000, and its 0.01 s silence threshold is "more
  than 10 ms". Speed-up rates are `real`.
- The speech renderer is a parameter `render: string -> RenderOutcome`. It
  gives the rendered length, which is 0 when the engine yields no chunks, or
  a failure, which stands for any exception raised while rendering. The
  voice and language are fixed inside `render`.
- In the batch scripts, the outcome of `gerar_dublagem` is a parameter
  `generate(subtitlePath, audioPath)`.
- A directory listing is a `seq<string>`. A folder that does not exist is
  `None`.

Two points about timing follow the code closely:

- The clock starts at 0, not at the first cue's start, and ends at the last
  cue's end (`Dubbing.Run`, `Dubbing.Dub`).
- pydub's speed-up only approximates `actual / rate`. The model records the
  rate, and `Dubbing.SpeedupTarget` states what `actual / rate` is relative
  to the slot.

## Model

| member | source | states |
|---|---|---|
| Text.Strip | gerador_de_dublagem.py:46 | `str.strip`. The result is a contiguous slice of the input. Only whitespace precedes and follows it, and it neither starts nor ends with whitespace. It is empty exactly when the input is all whitespace. |
| Text.Split | gerador_de_dublagem.py:22-23 | `str.split(sep)` gives at least one part. |
| Text.SplitPartsHaveNoSep | gerador_de_dublagem.py:22-23 | No part of a split contains the separator. |
| Text.JoinSplit | gerador_de_dublagem.py:22-23 | Joining the parts of a split with the separator gives back the original string. |
| Text.SplitConcat | gerador_de_dublagem.py:22-23 | Splitting at one separator splits the two sides independently: the parts of `a + sep + b` are the parts of `a` followed by the parts of `b`. |
| Text.SplitJoin | gerador_de_dublagem.py:22-23 | Splitting a join of separator-free parts gives back exactly those parts, so `Split` loses nothing. |
| Text.ParseNat | gerador_de_dublagem.py:24-27 | `int(field)` succeeds exactly on a non-empty string of decimal digits. |
| Text.PaddedShow | gerador_de_dublagem.py:24-27 | A zero-padded decimal numeral is accepted by `int` and reads back as its number. Leading zeros do not matter. |
| Timestamps.TryParseTime | gerador_de_dublagem.py:21-28 | The conversion inside the `try`, with `None` standing for the `ValueError` or `IndexError` it raises. Its successes in the WebVTT forms `H:M:S.F` and `M:S.F` are given by ParseHourMinuteSecond and ParseMinuteSecond; the other forms the code accepts by ParseSecondsOnly, ParseManyFields, ExtraDotIgnored and ExtraDotIgnoredSecondsOnly; its failures by MissingFractionIsZero, the NonNumeric lemmas and ParseSecondsOnly. |
| Timestamps.ParseTime | gerador_de_dublagem.py:19-31 | `parse_time`: the converted time in ms, or 0 when the conversion fails. Specified by the same lemmas and by ParseFormatRoundTrip. |
| Timestamps.ParseHourMinuteSecond | gerador_de_dublagem.py:22-28 | With three numeric colon fields and a numeric fraction, the conversion of `H:M:S.F` succeeds, and it reads as `H*3600000 + M*60000 + S*1000 + F` ms. The fraction is an integer count of milliseconds. |
| Timestamps.ThreeFieldSplit | gerador_de_dublagem.py:22 | `H:M:S.F` with colon-free fields, numeric or not, splits on `:` into exactly `H`, `M` and `S.F`. |
| Timestamps.ParseMinuteSecond | gerador_de_dublagem.py:22-28 | The conversion of the two-field form `M:S.F` with numeric fields succeeds, with hour term 0. |
| Timestamps.MissingFractionIsZero | gerador_de_dublagem.py:23-31 | A seconds field without `.` (the `IndexError` case) makes the conversion fail, and `parse_time` returns 0. |
| Timestamps.NonNumericSecondsIsZero | gerador_de_dublagem.py:26-31 | A non-numeric seconds field (the `ValueError` case) makes `parse_time` return 0. |
| Timestamps.NonNumericHourIsZero | gerador_de_dublagem.py:24-31 | In the three-field form, a non-numeric hour field makes the conversion fail and `parse_time` return 0, whatever the other fields hold. |
| Timestamps.NonNumericMinuteIsZero | gerador_de_dublagem.py:25-31 | With at least three fields, a non-numeric minute field (the one just before the last `:`) makes the conversion fail and `parse_time` return 0, whatever the other fields hold. |
| Timestamps.NonNumericLeadingMinuteIsZero | gerador_de_dublagem.py:25-31 | The same for the two-field form `M:S.F`. |
| Timestamps.NonNumericFractionIsZero | gerador_de_dublagem.py:27-31 | A non-numeric field after the `.` makes the conversion fail and `parse_time` return 0. |
| Timestamps.ParseSecondsOnly | gerador_de_dublagem.py:22-31 | The colon-free form `S.F` converts exactly when both fields are numeric, and then reads as `S*1000 + F` ms with hours and minutes 0. Otherwise `parse_time` gives 0. |
| Timestamps.ParseManyFields | gerador_de_dublagem.py:22-28 | With four or more colon fields the first field is never read: `front:M:S.F` with numeric `M`, `S`, `F` converts to `M*60000 + S*1000 + F` ms whatever `front` holds. |
| Timestamps.ExtraDotIgnored | gerador_de_dublagem.py:23-28 | Text after a second `.` in the seconds field is ignored: `P:S.F.X` converts exactly as `P:S.F` does. |
| Timestamps.ExtraDotIgnoredSecondsOnly | gerador_de_dublagem.py:23-28 | The same for the colon-free form: `S.F.X` converts exactly as `S.F` does. |
| Timestamps.ParseFormatRoundTrip | gerador_de_dublagem.py:19-28 | Every time written canonically as `hh:mm:ss.ttt` is read back exactly. |
| Dubbing.EnsureHeader | gerador_de_dublagem.py:46-48 | The `WEBVTT` header fix-up. Specified by HeaderAddedIffMissing and HeaderIdempotent. |
| Dubbing.HeaderAddedIffMissing | gerador_de_dublagem.py:46-48 | The document changes exactly when its stripped text does not start with `WEBVTT`. Afterwards it always does. The original text is kept, either unchanged or behind `WEBVTT` and a blank line. |
| Dubbing.HeaderIdempotent | gerador_de_dublagem.py:46-48 | Applying the fix-up a second time changes nothing. |
| Dubbing.NormalizeText | gerador_de_dublagem.py:83 | `text.replace('\n', ' ').strip()`. Specified by NormalizeTextSpec. |
| Dubbing.NormalizeTextSpec | gerador_de_dublagem.py:83-85 | The normalised cue text is empty exactly when the raw text is all whitespace. Otherwise it has no line break and no surrounding whitespace. |
| Dubbing.SpeedupRate | gerador_de_dublagem.py:100-106 | The speed-up decision for one rendering. Specified by SpeedupRateSpec, SpeedupTarget and ClampedExample. |
| Dubbing.SpeedupRateSpec | gerador_de_dublagem.py:100-107 | A speed-up happens exactly when the rendering is longer than a positive slot. Its rate is the ratio `actual/ideal` (always above 1) or `max_aceleracao`, whichever is smaller. |
| Dubbing.SpeedupTarget | gerador_de_dublagem.py:103-107 | The length a speed-up aims at, `actual / rate`, equals the slot when the rate is not clamped. It exceeds the slot when clamped, so the remaining drift is left to later cues. |
| Dubbing.ClampedExample | gerador_de_dublagem.py:103-106 | A 3 s rendering for a 1 s slot with maximum 1.5 gets rate 1.5, so the length it aims at, 3 s divided by that rate, is 2 s, longer than the slot. |
| Dubbing.ThreeCueScenario | gerador_de_dublagem.py:74-113 | Cues 0-2 s "A", 2-3 s empty and 3-5 s "B", each text rendering in 1 s: the track is speech "A" then speech "B", both unchanged, with no silence, and the clock ends at 5 s. |
| Dubbing.SpansFor | gerador_de_dublagem.py:78-109 | The spans one cue appends, given its gap to the clock, its slot and its normalised text. Specified by SpansSpec, SpansWellFormed and SpansSpeechCount. |
| Dubbing.CueSpans | gerador_de_dublagem.py:75-109 | The same for a cue with its timestamps read by `parse_time`. Specified by CueSpansWellFormed, CueSpeechCount, EmptyCue and FittingCue. |
| Dubbing.SpansSpec | gerador_de_dublagem.py:78-111 | A silence is appended exactly when the gap to the clock exceeds 10 ms, and it lasts exactly the gap. A speech span is appended exactly when the normalised text is non-empty and renders. It carries that text, the rendered length and the speed-up decision for the cue's nominal slot. |
| Dubbing.SpansWellFormed | gerador_de_dublagem.py:78-109 | Given text without line breaks, every span a cue adds is well formed. |
| Dubbing.CueSpansWellFormed | gerador_de_dublagem.py:78-109 | Every span a cue adds is well formed: a silence is longer than 10 ms; speech has non-empty single-line text; a rate is at most `max_aceleracao` and is a true speed-up unless it is the clamp itself. |
| Dubbing.EmptyCue | gerador_de_dublagem.py:78-87 | A whitespace-only cue within the threshold of the clock appends nothing. |
| Dubbing.FittingCue | gerador_de_dublagem.py:100-109 | A cue whose rendering fits its slot appends exactly that speech, unchanged and with no padding. |
| Dubbing.WellFormedAppend | gerador_de_dublagem.py:81-109 | Appending a well-formed block to a well-formed track keeps it well formed. |
| Dubbing.Run | gerador_de_dublagem.py:66-113 | After any prefix of the cues, the clock is 0 if no cue was processed and otherwise the last cue's parsed end. Every span on the track is well formed. |
| Dubbing.ProcessCue | gerador_de_dublagem.py:74-113 | The loop body appends exactly the cue's spans to the track and moves the clock to the cue's nominal end. This holds on every path: empty text, failed rendering, or successful rendering. |
| Dubbing.Dub | gerador_de_dublagem.py:66-113 | The loop builds exactly `Run(cues)`. The clock starts at 0 and ends at the last cue's end, and the track holds only well-formed spans. |
| Dubbing.RunAppendOnly | gerador_de_dublagem.py:81-109 | The track only grows by appends. What the first cues produced stays, unchanged and in order, at the front. |
| Dubbing.ClockIgnoresRenderer | gerador_de_dublagem.py:86-113 | The clock after cue `i` is cue `i`'s nominal end, the same whatever the renderer did. |
| Dubbing.SpansSpeechCount | gerador_de_dublagem.py:83-111 | A cue's spans hold one speech span if its text is non-empty and renders, none otherwise. |
| Dubbing.CueSpeechCount | gerador_de_dublagem.py:83-111 | The same count for a cue with its parsed times. |
| Dubbing.SpeechCountAppend | gerador_de_dublagem.py:81-109 | Speech spans of a concatenated track add up. |
| Dubbing.SpeechPerSpokenCue | gerador_de_dublagem.py:83-111 | The track holds exactly one speech span per cue whose text is non-empty and renders. Empty cues and renderer failures add none. |
| FileNames.Lower | processar_lote.py:30-31 | The model's ASCII-only `lower()` keeps the length. |
| FileNames.LowerChars | processar_lote.py:30-31 | The model's ASCII-only `lower()` lowers each character on its own. |
| FileNames.LastDot | processar_lote.py:30 | Finds a position holding `.`, or -1. |
| FileNames.LastDotIsLast | processar_lote.py:30 | No `.` follows the position `LastDot` finds, and there is no `.` at all when it finds none. |
| FileNames.LastDotIs | processar_lote.py:30 | A `.` with no `.` after it is the one `LastDot` finds. |
| FileNames.OnlyDotsSpec | processar_lote.py:30 | `OnlyDots` holds exactly when every character is `.`, the leading-dots rule of `splitext`. |
| FileNames.Stem | processar_lote.py:30-31 | `os.path.splitext(f)[0]`. Specified by StemSpec, StemOfNameWithExtension and StemWithoutDot. |
| FileNames.StemSpec | processar_lote.py:30 | `splitext(f)[0]` is a prefix of `f`. When shorter, it stops at the last `.` and is not made only of dots. |
| FileNames.StemOfNameWithExtension | processar_lote.py:30-31 | `b.e`, with a dot-free `e` and `b` not all dots, is filed under `b`. |
| FileNames.StemWithoutDot | processar_lote.py:30 | A name without a dot is its own base name. |
| FileNames.HasExtension | processar_lote.py:30-31 | `f.lower().endswith(ext)`. IsVideo and IsSubtitle apply it to `.mp4` and `.vtt`. Used by PrefixPairing.Videos and ExactPairing.IndexKeys; the one-line body is its own specification. |
| FileNames.Join | processar_lote.py:47-50 | POSIX `os.path.join` (posixpath) of a folder and a name. Specified by JoinSpec. |
| FileNames.JoinSpec | processar_lote.py:47-50 | The joined path ends with the name. An absolute name discards the folder. A relative name follows the folder, separated by exactly one `/` when the folder is not empty. |
| FileNames.TempAudioPath | processar_lote.py:49 | `<dir>/<base>.dub_temp.mp3`. Used by Batch.BlockCalls and Batch.RemovedUnlessKept. |
| FileNames.OutputVideoPath | processar_lote.py:50 | `<dir>/<base>_dublado.mp4`. Used by Batch.BlockCalls. |
| FileNames.LexIrreflexive | processar_lote.py:43 | Python's string `<` is irreflexive. |
| FileNames.LexTransitive | processar_lote.py:43 | Python's string `<` is transitive. |
| FileNames.LexTotal | processar_lote.py:43 | Any two different strings are ordered one way or the other. |
| FileNames.LexAsymmetric | processar_lote.py:43 | Python's string `<` is asymmetric. |
| Batch.JobActions | processar_lote.py:52-59 | The calls made for one pair. Specified by BlockCalls. |
| Batch.Actions | processar_lote.py:43-59 | The calls made for all pairs, in order. Specified by RunJobs, GeneratedOncePerJob, MuxedIffGenerated and RemovedUnlessKept. |
| Batch.RunJobs | processar_lote.py:42-59 | The processing loop makes exactly the calls `Actions(jobs)`, block by block in pair order. It makes no calls for no pairs. |
| Batch.BlockCalls | processar_lote.py:47-59 | Each pair makes one `gerar_dublagem` call, into `<dir>/<base>.dub_temp.mp3`. Only on success does it mux into `<dir>/<base>_dublado.mp4`, and it removes the temporary audio only when it is not to be kept. |
| Batch.BlockOrder | processar_lote.py:52-59 | One pair's calls start with its `gerar_dublagem` call, hold no other generation, and keep the order generate, mux, remove: the mux directly follows a successful generation of its audio, and the removal directly follows the mux of the file it removes. |
| Batch.OrderAppend | processar_lote.py:42-59 | Two traces that keep the call order still keep it when run one after the other. |
| Batch.ActionsInOrder | processar_lote.py:42-59 | Over the whole run, no mux happens without the successful generation of its audio just before it, and no temporary audio is removed before the mux that used it. |
| Batch.OnlyAppend | processar_lote.py:42-59 | Picking out one kind of call distributes over concatenated traces. |
| Batch.GeneratedOncePerJob | processar_lote.py:43-52 | Every pair's audio is generated exactly once, in processing order, whatever the outcomes. |
| Batch.MuxedIffGenerated | processar_lote.py:52-55 | Muxing happens for exactly the pairs whose audio was generated, in order. |
| Batch.RemovedUnlessKept | processar_lote.py:54-59 | Temporary audio is removed for exactly the successful pairs when it is not to be kept. Nothing is removed when it is kept. |
| ExactPairing.Index | processar_lote.py:30-31 | The dict comprehension from base name to file name. Specified by IndexHasKey, IndexKeys and IndexLast. |
| ExactPairing.IndexHasKey | processar_lote.py:30-31 | A base name is a key of the map exactly when some listed file with the extension has it (`AnyKeyed`). |
| ExactPairing.AnyKeyedSpec | processar_lote.py:30-31 | `AnyKeyed` holds exactly when some index of the listing holds a file with the extension and that base name. |
| ExactPairing.IndexKeys | processar_lote.py:30-31 | A base name is a key of the video (subtitle) map exactly when some listed `.mp4` (`.vtt`) file, by case-insensitive suffix, has that base name. |
| ExactPairing.IndexLast | processar_lote.py:30-31 | A key maps to the last listed file with that base name. Later entries overwrite earlier ones. |
| ExactPairing.VideoKeysWithSubtitleSpec | processar_lote.py:30-34 | The video base names that have a subtitle are exactly the subtitle keys that some listed video has as its base name (`AnyKeyed`), that is, the base names shared by both maps. |
| ExactPairing.CommonKeys | processar_lote.py:34 | `set(videos.keys()) & set(legendas.keys())`. Specified by CommonNames. |
| ExactPairing.Insert | processar_lote.py:43 | Inserting into an ascending duplicate-free list keeps it ascending and duplicate-free. Its members become the old ones plus the new name. |
| ExactPairing.SortedNames | processar_lote.py:43 | The names are listed in ascending order without repetitions, and nothing is added or lost. |
| ExactPairing.StrictlySortedUnique | processar_lote.py:43 | Two ascending duplicate-free lists with the same members are equal, so the processing order does not depend on how the set is enumerated. |
| ExactPairing.CommonNames | processar_lote.py:34-43 | `sorted(set(videos) & set(legendas))` holds every shared base name exactly once, in ascending order, and nothing else. |
| ExactPairing.ExactJobs | processar_lote.py:43-50 | There is one pair per shared base name, in the same order, named after that base name. |
| ExactPairing.ExactJobsSpec | processar_lote.py:30-50 | Pair `n` has a shared base name, larger than every earlier pair's. Its video and its subtitle are the last-listed files of that base name. |
| ExactPairing.ProcessFolder | processar_lote.py:17-59 | A missing folder makes no calls. Otherwise the calls are exactly those of the loop over the sorted pairs, and no calls at all when no base name is shared. |
| PrefixPairing.Videos | processar_lote_Inteligente.py:25 | The videos are exactly the listed files with a case-insensitive `.mp4` suffix. |
| PrefixPairing.VideosAppend | processar_lote_Inteligente.py:25 | The videos of two listings read in turn are the first one's videos followed by the second one's, so the video list keeps listing order. |
| PrefixPairing.Matches | processar_lote_Inteligente.py:40 | The inner loop's test: a `.vtt` suffix, case-insensitively, and a base name that starts with the video's. Specified by FirstSubtitle. |
| PrefixPairing.FirstSubtitle | processar_lote_Inteligente.py:36-42 | The subtitle found for a base name is the first listed `.vtt` file whose base name starts with it. It is `None` exactly when no listed file qualifies. |
| PrefixPairing.FindSubtitle | processar_lote_Inteligente.py:36-42 | The inner loop with its `break` finds exactly `FirstSubtitle`. |
| PrefixPairing.FindPairs | processar_lote_Inteligente.py:33-48 | The outer loop collects exactly one pair for each video that finds a subtitle, in the order of the videos. |
| PrefixPairing.PairsOf | processar_lote_Inteligente.py:33-48 | The pairs collected over the videos. Specified by FindPairs, PairsOfSpec and PairsOfDistinct. |
| PrefixPairing.Pairs | processar_lote_Inteligente.py:25-48 | The same over the listing's videos. Specified by PairsOfSpec, EachVideoPairedOnce and ExactSubtitleGetsPaired. |
| PrefixPairing.PairsOfSpec | processar_lote_Inteligente.py:33-48 | There are at most as many pairs as videos. Every pair is a listed video with the first matching subtitle for its base name. Every video that has a match is paired. |
| PrefixPairing.PairsOfDistinct | processar_lote_Inteligente.py:34-48 | With distinct videos, no video appears in two pairs. |
| PrefixPairing.VideosDistinct | processar_lote_Inteligente.py:20-25 | A listing without repeated names gives a video list without repeats. |
| PrefixPairing.EachVideoPairedOnce | processar_lote_Inteligente.py:25-48 | With the listing's names distinct, each video is paired at most once. |
| PrefixPairing.ExactSubtitleGetsPaired | processar_lote_Inteligente.py:39-45 | A video whose exact-base subtitle is listed is always paired. Its subtitle is a match listed no later than the exact one, possibly an earlier prefix match. |
| PrefixPairing.SubtitleShared | processar_lote_Inteligente.py:39-45 | One subtitle can serve several videos: when it is the only subtitle listed, every video whose base name starts the subtitle's base name is paired with it. |
| PrefixPairing.PairedWithOnlySubtitle | processar_lote_Inteligente.py:39-45 | When only one subtitle is listed, a video whose base name starts that subtitle's base name is paired with it. |
| PrefixPairing.PairLessTransitive | processar_lote_Inteligente.py:57 | Tuple order (video first, then subtitle) is transitive. |
| PrefixPairing.PairTotal | processar_lote_Inteligente.py:57 | Any two pairs are ordered one way or the other. |
| PrefixPairing.PairAntisymmetric | processar_lote_Inteligente.py:57 | Pairs ordered both ways are equal. |
| PrefixPairing.PairLeqTransitive | processar_lote_Inteligente.py:57 | Non-strict tuple order is transitive. |
| PrefixPairing.InsertPair | processar_lote_Inteligente.py:57 | Inserting a pair into a sorted list keeps it sorted and adds exactly that pair to the multiset. |
| PrefixPairing.SortPairs | processar_lote_Inteligente.py:57 | `sorted(pares_encontrados)` is sorted in tuple order and is a permutation of its input. |
| PrefixPairing.SortedPairsUnique | processar_lote_Inteligente.py:57 | Two sorted permutations of the same pairs are equal, so the result is the one Python's `sorted` gives. |
| PrefixPairing.BelowHead | processar_lote_Inteligente.py:57 | A pair no larger than a sorted list's head is no larger than any of its members. |
| PrefixPairing.LeastFirstSorted | processar_lote_Inteligente.py:57 | Putting a pair no larger than every member in front of a sorted list keeps it sorted. |
| PrefixPairing.SortedHeadIsLeast | processar_lote_Inteligente.py:57 | The head of a sorted list is no larger than any of its members. |
| PrefixPairing.PrefixJobs | processar_lote_Inteligente.py:57-64 | There is one job per found pair. |
| PrefixPairing.PrefixJobsSpec | processar_lote_Inteligente.py:57-64 | The jobs are the found pairs, each once, in ascending tuple order. Each is named after its video's base name. |
| PrefixPairing.ProcessFolder | processar_lote_Inteligente.py:12-72 | A missing folder makes no calls. Otherwise the calls are exactly those of the loop over the sorted pairs, and no calls at all when no pair was found (including when there are no videos). |

## Left out

- Printing, the progress counter `contador` and the `argparse` entry points of all three scripts.
- The Kokoro pipeline, `np.concatenate`, the temporary WAV file and `AudioSegment.from_wav`: one abstract renderer returns a length in ms or a failure.
- The internals of `pydub.effects.speedup`: only the chosen rate is recorded, not the resulting audio or its length.
- Any exception raised by `speedup` itself: in the source it would drop that cue's speech, like a rendering failure.
- IEEE float arithmetic on seconds. Times are exact integer milliseconds, so a gap that floating point puts just above or below 0.01 s may be decided differently from the source.
- Text.ParseNat: accepts only ASCII digit strings. Python's `int()` also accepts signs, surrounding whitespace, underscores and non-ASCII digits; a timestamp using those reads as 0 in the model.
- FileNames.Lower: lowers ASCII letters only, one character at a time (also LowerChars). Python's `lower()` also lowers other letters, and not always one character at a time: `İ` (U+0130) becomes two code points, and a final sigma depends on its neighbours. No non-ASCII character lowers to one of `.mp4vt`, so the suffix tests agree with Python.
- `webvtt.read_buffer`: cues arrive as a sequence of (start, end, text) strings.
- Opening the subtitle file, its BOM handling, the MP3 export and the cleanup of the temporary WAV file: these are file I/O.
- The success value of `gerar_dublagem`: it is `False` on any failure inside it (a missing subtitle file, a WebVTT parse error, a pipeline that fails to load, a failed export), so the batch loop takes it as an unconstrained parameter `generate`.
- `adicionar_audio_ao_video` and its ffmpeg subprocess: recorded as a `Mux` action. It catches `FileNotFoundError` (no ffmpeg) and `CalledProcessError` (ffmpeg failed), reports them and returns, so the removal that follows does not depend on those failures. Any other exception from it would stop the batch, which is not modelled.
- `os.listdir`, `os.remove` and the file system: the listing is an input and the calls are recorded. An exception from `os.remove` or from `gerar_dublagem` would stop the batch, which is not modelled.
- `os.path.splitext` and `os.path.join` on names containing `/`: listing entries never contain it.
- FileNames.Join: POSIX rules only. On Windows `os.path.join` is `ntpath.join`, which joins with `\`, treats a trailing `\` or `/` as a separator and applies drive-letter rules, so the paths in TempAudioPath, OutputVideoPath and the Batch traces are those of a POSIX system.

=== FILE: batch.dfy ===
/** The processing loop both batch scripts run over their matched pairs
    (processar_lote.py:42-59, processar_lote_Inteligente.py:57-72): for each
    pair, generate the dubbed audio into a temporary file; when that
    succeeded, add it to the video as a second audio track and, unless the
    audio is to be kept, remove the temporary file.

    The effects are recorded in a trace of actions. Whether generating
    succeeds is an input (`generate`): it depends on reading and exporting
    files, which this model does not cover. */
module Batch {
  import opened FileNames

  /** One matched pair: the video file, the subtitle file, and the base
      name the derived files are named after. */
  datatype Job = Job(video: string, subtitle: string, base: string)

  /** The calls a batch run makes: `gerar_dublagem` with its outcome,
      `adicionar_audio_ao_video`, and `os.remove`. */
  datatype Action =
    | Generate(subtitle: string, audio: string, ok: bool)
    | Mux(video: string, audio: string, output: string)
    | Remove(path: string)

  function GenerateOf(dir: string, job: Job, generate: (string, string) -> bool): Action {
    var subtitle := Join(dir, job.subtitle);
    var audio := TempAudioPath(dir, job.base);
    Generate(subtitle, audio, generate(subtitle, audio))
  }

  function MuxOf(dir: string, job: Job): Action {
    Mux(Join(dir, job.video), TempAudioPath(dir, job.base), OutputVideoPath(dir, job.base))
  }

  function Succeeded(dir: string, job: Job, generate: (string, string) -> bool): bool {
    generate(Join(dir, job.subtitle), TempAudioPath(dir, job.base))
  }

  /** The calls made for one pair. The mux step reports its own failure and
      returns normally, so the removal does not depend on it. */
  function JobActions(dir: string, job: Job, generate: (string, string) -> bool, keepAudio: bool): seq<Action> {
    var gen := GenerateOf(dir, job, generate);
    if !gen.ok then [gen]
    else if keepAudio then [gen, MuxOf(dir, job)]
    else [gen, MuxOf(dir, job), Remove(TempAudioPath(dir, job.base))]
  }

  /** The calls made for the pairs, in order. */
  function Actions(dir: string, jobs: seq<Job>, generate: (string, string) -> bool, keepAudio: bool): seq<Action> {
    if jobs == [] then []
    else Actions(dir, jobs[..|jobs| - 1], generate, keepAudio)
         + JobActions(dir, jobs[|jobs| - 1], generate, keepAudio)
  }

  /** The processing loop: one block of calls per pair, in the given order. */
  method RunJobs(dir: string, jobs: seq<Job>, generate: (string, string) -> bool, keepAudio: bool)
    returns (trace: seq<Action>)
    ensures trace == Actions(dir, jobs, generate, keepAudio)
    ensures jobs == [] ==> trace == []
  {
    trace := [];
    var i := 0;
    while i < |jobs|
      invariant 0 <= i <= |jobs|
      invariant trace == Actions(dir, jobs[..i], generate, keepAudio)
    {
      var job := jobs[i];
      var subtitle := Join(dir, job.subtitle);
      var audio := TempAudioPath(dir, job.base);
      var output := OutputVideoPath(dir, job.base);
      var ok := generate(subtitle, audio);
      trace := trace + [Generate(subtitle, audio, ok)];
      if ok {
        trace := trace + [Mux(Join(dir, job.video), audio, output)];
        if !keepAudio {
          trace := trace + [Remove(audio)];
        }
      }
      assert jobs[..i + 1][..i] == jobs[..i];
      i := i + 1;
    }
    assert jobs[..i] == jobs;
  }

  /** The three kinds of call a trace records. */
  datatype Kind = GenerateCall | MuxCall | RemoveCall

  predicate OfKind(a: Action, k: Kind) {
    match k
    case GenerateCall => a.Generate?
    case MuxCall => a.Mux?
    case RemoveCall => a.Remove?
  }

  /** The calls of one kind in a trace, in order. */
  function Only(trace: seq<Action>, k: Kind): seq<Action> {
    if trace == [] then []
    else Only(trace[..|trace| - 1], k) + (if OfKind(trace[|trace| - 1], k) then [trace[|trace| - 1]] else [])
  }

  lemma {:induction false} OnlyAppend(a: seq<Action>, b: seq<Action>, k: Kind)
    ensures Only(a + b, k) == Only(a, k) + Only(b, k)
    decreases |b|
  {
    if b == [] {
      assert a + b == a;
    } else {
      var last := b[|b| - 1];
      OnlyAppend(a, b[..|b| - 1], k);
      assert (a + b)[..|a + b| - 1] == a + b[..|b| - 1];
      assert (a + b)[|a + b| - 1] == last;
      var tail := if OfKind(last, k) then [last] else [];
      calc {
        Only(a + b, k);
        Only(a + b[..|b| - 1], k) + tail;
        Only(a, k) + Only(b[..|b| - 1], k) + tail;
        Only(a, k) + Only(b, k);
      }
    }
  }

  /** The pairs whose audio was generated successfully, in order. */
  function SucceededJobs(dir: string, jobs: seq<Job>, generate: (string, string) -> bool): seq<Job> {
    if jobs == [] then []
    else SucceededJobs(dir, jobs[..|jobs| - 1], generate)
         + (if Succeeded(dir, jobs[|jobs| - 1], generate) then [jobs[|jobs| - 1]] else [])
  }

  /** Every pair's audio is generated exactly once, in order, whatever the
      outcomes. */
  lemma {:induction false} GeneratedOncePerJob(dir: string, jobs: seq<Job>, generate: (string, string) -> bool, keepAudio: bool)
    ensures |Only(Actions(dir, jobs, generate, keepAudio), GenerateCall)| == |jobs|
    ensures forall i :: 0 <= i < |jobs| ==>
              Only(Actions(dir, jobs, generate, keepAudio), GenerateCall)[i] == GenerateOf(dir, jobs[i], generate)
    decreases |jobs|
  {
    if jobs != [] {
      var init := jobs[..|jobs| - 1];
      var job := jobs[|jobs| - 1];
      var before := Actions(dir, init, generate, keepAudio);
      var block := JobActions(dir, job, generate, keepAudio);
      GeneratedOncePerJob(dir, init, generate, keepAudio);
      OnlyAppend(before, block, GenerateCall);
      BlockCalls(dir, job, generate, keepAudio);
      MapSnoc(jobs, Only(before, GenerateCall), Only(Actions(dir, jobs, generate, keepAudio), GenerateCall),
              j => GenerateOf(dir, j, generate));
    }
  }

  /** One action per pair, extended by the action of one more pair. */
  lemma MapSnoc(xs: seq<Job>, before: seq<Action>, after: seq<Action>, f: Job -> Action)
    requires xs != [] && |before| == |xs| - 1
    requires forall i :: 0 <= i < |xs| - 1 ==> before[i] == f(xs[..|xs| - 1][i])
    requires after == before + [f(xs[|xs| - 1])]
    ensures |after| == |xs|
    ensures forall i :: 0 <= i < |xs| ==> after[i] == f(xs[i])
  {
    forall i | 0 <= i < |xs| ensures after[i] == f(xs[i]) {
      if i < |xs| - 1 {
        assert xs[..|xs| - 1][i] == xs[i];
      }
    }
  }

  /** A video gets its dubbed track exactly when its audio was generated,
      in the order of the pairs. */
  lemma {:induction false} MuxedIffGenerated(dir: string, jobs: seq<Job>, generate: (string, string) -> bool, keepAudio: bool)
    ensures |Only(Actions(dir, jobs, generate, keepAudio), MuxCall)| == |SucceededJobs(dir, jobs, generate)|
    ensures forall i :: 0 <= i < |SucceededJobs(dir, jobs, generate)| ==>
              Only(Actions(dir, jobs, generate, keepAudio), MuxCall)[i] == MuxOf(dir, SucceededJobs(dir, jobs, generate)[i])
    decreases |jobs|
  {
    if jobs != [] {
      var init := jobs[..|jobs| - 1];
      var job := jobs[|jobs| - 1];
      MuxedIffGenerated(dir, init, generate, keepAudio);
      var before := Only(Actions(dir, init, generate, keepAudio), MuxCall);
      var m := Only(Actions(dir, jobs, generate, keepAudio), MuxCall);
      var okInit := SucceededJobs(dir, init, generate);
      var ok := SucceededJobs(dir, jobs, generate);
      MuxStep(dir, jobs, generate, keepAudio);
      if Succeeded(dir, job, generate) {
        assert ok[..|ok| - 1] == okInit;
        MapSnoc(ok, before, m, j => MuxOf(dir, j));
      }
    }
  }

  /** What one more pair adds to the muxes and to the successful pairs. */
  lemma MuxStep(dir: string, jobs: seq<Job>, generate: (string, string) -> bool, keepAudio: bool)
    requires jobs != []
    ensures var init := jobs[..|jobs| - 1];
            var job := jobs[|jobs| - 1];
            var before := Only(Actions(dir, init, generate, keepAudio), MuxCall);
            var m := Only(Actions(dir, jobs, generate, keepAudio), MuxCall);
            var okInit := SucceededJobs(dir, init, generate);
            var ok := SucceededJobs(dir, jobs, generate);
            (Succeeded(dir, job, generate) ==> ok == okInit + [job] && m == before + [MuxOf(dir, job)])
            && (!Succeeded(dir, job, generate) ==> ok == okInit && m == before)
  {
    var init := jobs[..|jobs| - 1];
    var job := jobs[|jobs| - 1];
    OnlyAppend(Actions(dir, init, generate, keepAudio), JobActions(dir, job, generate, keepAudio), MuxCall);
    BlockCalls(dir, job, generate, keepAudio);
  }

  /** The temporary audio of each successful pair is removed unless it is
      to be kept; nothing else is ever removed. */
  lemma {:induction false} RemovedUnlessKept(dir: string, jobs: seq<Job>, generate: (string, string) -> bool, keepAudio: bool)
    ensures keepAudio ==> Only(Actions(dir, jobs, generate, keepAudio), RemoveCall) == []
    ensures !keepAudio ==> |Only(Actions(dir, jobs, generate, keepAudio), RemoveCall)| == |SucceededJobs(dir, jobs, generate)|
    ensures !keepAudio ==> forall i :: 0 <= i < |SucceededJobs(dir, jobs, generate)| ==>
              Only(Actions(dir, jobs, generate, keepAudio), RemoveCall)[i]
              == Remove(TempAudioPath(dir, SucceededJobs(dir, jobs, generate)[i].base))
    decreases |jobs|
  {
    if jobs != [] {
      var init := jobs[..|jobs| - 1];
      var job := jobs[|jobs| - 1];
      RemovedUnlessKept(dir, init, generate, keepAudio);
      var before := Only(Actions(dir, init, generate, keepAudio), RemoveCall);
      var r := Only(Actions(dir, jobs, generate, keepAudio), RemoveCall);
      var okInit := SucceededJobs(dir, init, generate);
      var ok := SucceededJobs(dir, jobs, generate);
      RemoveStep(dir, jobs, generate, keepAudio);
      if Succeeded(dir, job, generate) && !keepAudio {
        assert ok[..|ok| - 1] == okInit;
        MapSnoc(ok, before, r, (j: Job) => Remove(TempAudioPath(dir, j.base)));
      }
    }
  }

  /** What one more pair adds to the removals and to the successful pairs. */
  lemma RemoveStep(dir: string, jobs: seq<Job>, generate: (string, string) -> bool, keepAudio: bool)
    requires jobs != []
    ensures var init := jobs[..|jobs| - 1];
            var job := jobs[|jobs| - 1];
            var before := Only(Actions(dir, init, generate, keepAudio), RemoveCall);
            var r := Only(Actions(dir, jobs, generate, keepAudio), RemoveCall);
            var okInit := SucceededJobs(dir, init, generate);
            var ok := SucceededJobs(dir, jobs, generate);
            (Succeeded(dir, job, generate) ==> ok == okInit + [job])
            && (!Succeeded(dir, job, generate) ==> ok == okInit)
            && r == before + (if Succeeded(dir, job, generate) && !keepAudio
                              then [Remove(TempAudioPath(dir, job.base))] else [])
  {
    var init := jobs[..|jobs| - 1];
    var job := jobs[|jobs| - 1];
    OnlyAppend(Actions(dir, init, generate, keepAudio), JobActions(dir, job, generate, keepAudio), RemoveCall);
    BlockCalls(dir, job, generate, keepAudio);
  }

  lemma BlockKind(gen: Action, mux: Action, rm: Action, k: Kind)
    ensures Only([gen, mux], k) == Only([gen], k) + Only([mux], k)
    ensures Only([gen, mux, rm], k) == Only([gen], k) + Only([mux], k) + Only([rm], k)
  {
    OnlyAppend([gen], [mux], k);
    OnlyAppend([gen, mux], [rm], k);
    assert [gen] + [mux] == [gen, mux];
    assert [gen, mux] + [rm] == [gen, mux, rm];
  }

  /** The calls of each kind in one pair's block. */
  lemma BlockCalls(dir: string, job: Job, generate: (string, string) -> bool, keepAudio: bool)
    ensures var block := JobActions(dir, job, generate, keepAudio);
            var ok := Succeeded(dir, job, generate);
            Only(block, GenerateCall) == [GenerateOf(dir, job, generate)]
            && Only(block, MuxCall) == (if ok then [MuxOf(dir, job)] else [])
            && Only(block, RemoveCall)
               == (if ok && !keepAudio then [Remove(TempAudioPath(dir, job.base))] else [])
  {
    var gen := GenerateOf(dir, job, generate);
    var mux := MuxOf(dir, job);
    var rm := Remove(TempAudioPath(dir, job.base));
    assert gen.ok == Succeeded(dir, job, generate);
    BlockKind(gen, mux, rm, GenerateCall);
    BlockKind(gen, mux, rm, MuxCall);
    BlockKind(gen, mux, rm, RemoveCall);
  }

  /** Every mux follows directly the successful generation of the audio it
      uses, and every removal follows directly the mux that used the file
      it removes: the temporary audio is never removed before it was added
      to the video. */
  predicate CallsInOrder(t: seq<Action>) {
    (t != [] ==> t[0].Generate?)
    && forall j :: 1 <= j < |t| ==>
         (t[j].Mux? ==> t[j - 1].Generate? && t[j - 1].ok && t[j - 1].audio == t[j].audio)
         && (t[j].Remove? ==> t[j - 1].Mux? && t[j - 1].audio == t[j].path)
  }

  /** One pair's block starts with its `gerar_dublagem` call and keeps the
      calls in order. */
  lemma BlockOrder(dir: string, job: Job, generate: (string, string) -> bool, keepAudio: bool)
    ensures var block := JobActions(dir, job, generate, keepAudio);
            block != [] && block[0] == GenerateOf(dir, job, generate)
            && (forall j :: 1 <= j < |block| ==> !block[j].Generate?)
            && CallsInOrder(block)
  {
  }

  /** Runs that keep the order can be chained. */
  lemma OrderAppend(a: seq<Action>, b: seq<Action>)
    requires CallsInOrder(a) && CallsInOrder(b)
    ensures CallsInOrder(a + b)
  {
    var t := a + b;
    forall j | 1 <= j < |t|
      ensures (t[j].Mux? ==> t[j - 1].Generate? && t[j - 1].ok && t[j - 1].audio == t[j].audio)
              && (t[j].Remove? ==> t[j - 1].Mux? && t[j - 1].audio == t[j].path)
    {
      if j > |a| {
        assert t[j] == b[j - |a|] && t[j - 1] == b[j - |a| - 1];
      } else if j == |a| {
        assert t[j] == b[0];
      } else {
        assert t[j] == a[j] && t[j - 1] == a[j - 1];
      }
    }
  }

  /** The whole run keeps the calls of each pair in order: no mux without
      the generation before it, no removal before the mux. */
  lemma {:induction false} ActionsInOrder(dir: string, jobs: seq<Job>, generate: (string, string) -> bool, keepAudio: bool)
    ensures CallsInOrder(Actions(dir, jobs, generate, keepAudio))
    decreases |jobs|
  {
    if jobs != [] {
      var init := jobs[..|jobs| - 1];
      ActionsInOrder(dir, init, generate, keepAudio);
      BlockOrder(dir, jobs[|jobs| - 1], generate, keepAudio);
      OrderAppend(Actions(dir, init, generate, keepAudio), JobActions(dir, jobs[|jobs| - 1], generate, keepAudio));
    }
  }
}

=== FILE: dubbing.dfy ===
/** The synchronisation core of `gerar_dublagem` (gerador_de_dublagem.py):
    the WebVTT header fix-up, the cue-text normalisation, and the per-cue
    loop that lays silence and speech on one track while a clock follows
    the cues' nominal end times.

    Times are integer milliseconds (see module Timestamps). The speech
    renderer (the Kokoro pipeline with the WAV round trip behind it) is a
    function parameter that yields the rendered duration or a failure;
    a speed-up is recorded by its rate, not by a resulting length. */
module Dubbing {
  import opened Text
  import opened Timestamps

  // ---------------------------------------------------------------- header

  const Header: string := "WEBVTT"

  /** Prefix the document with `WEBVTT` and a blank line unless, once
      surrounding whitespace is ignored, it already starts with `WEBVTT`. */
  function EnsureHeader(content: string): string {
    if Header <= Strip(content) then content else Header + "\n\n" + content
  }

  /** Stripping keeps a leading run of non-space characters in front. */
  lemma {:induction false} StripKeepsSolidPrefix(p: string, rest: string)
    requires p != [] && forall i :: 0 <= i < |p| ==> !IsSpace(p[i])
    ensures p <= Strip(p + rest)
  {
    var s := p + rest;
    assert !IsSpace(s[0]);
    assert LeadingSpaces(s) == 0;
    assert s[LeadingSpaces(s)..] == s;
    var k := TrailingStart(s);
    assert s[|p| - 1] == p[|p| - 1];
    assert Strip(s) == s[..k];
    assert s[..k][..|p|] == p;
  }

  /** The header is added exactly when it is missing, and afterwards the
      stripped document always starts with it. */
  lemma HeaderAddedIffMissing(content: string)
    ensures EnsureHeader(content) != content <==> !(Header <= Strip(content))
    ensures Header <= Strip(EnsureHeader(content))
    ensures EnsureHeader(content) == content || EnsureHeader(content) == Header + "\n\n" + content
  {
    if !(Header <= Strip(content)) {
      StripKeepsSolidPrefix(Header, "\n\n" + content);
      assert Header + "\n\n" + content == Header + ("\n\n" + content);
      assert |EnsureHeader(content)| > |content|;
    }
  }

  /** Applying the fix-up twice changes nothing more. */
  lemma HeaderIdempotent(content: string)
    ensures EnsureHeader(EnsureHeader(content)) == EnsureHeader(content)
  {
    HeaderAddedIffMissing(content);
  }

  // ------------------------------------------------------------- cue text

  /** `text.replace('\n', ' ').strip()` */
  function NormalizeText(text: string): string {
    Strip(seq(|text|, i requires 0 <= i < |text| => if text[i] == '\n' then ' ' else text[i]))
  }

  /** The normalised text is empty exactly when the cue text is all
      whitespace, and a non-empty one holds no line break and no
      surrounding whitespace. */
  lemma NormalizeTextSpec(text: string)
    ensures NormalizeText(text) == [] <==> AllSpace(text)
    ensures '\n' !in NormalizeText(text)
    ensures var r := NormalizeText(text);
            r == [] || (!IsSpace(r[0]) && !IsSpace(r[|r| - 1]))
  {
    var flat := seq(|text|, i requires 0 <= i < |text| => if text[i] == '\n' then ' ' else text[i]);
    assert AllSpace(flat) <==> AllSpace(text) by {
      assert forall i :: 0 <= i < |text| ==> (IsSpace(flat[i]) <==> IsSpace(text[i]));
    }
    var r := Strip(flat);
    var a := LeadingSpaces(flat);
    assert r == flat[a..a + |r|];
    forall i | 0 <= i < |r| ensures r[i] != '\n' {
      assert r[i] == flat[a + i];
    }
  }

  // ---------------------------------------------------------------- cues

  /** One cue as the subtitle library hands it over. */
  datatype Cue = Cue(startStamp: string, endStamp: string, text: string)

  /** What the renderer gives back for one text: the length of the rendered
      audio in milliseconds (0 when it yields no chunks), or a failure,
      which stands for any exception raised while rendering. */
  datatype RenderOutcome = RenderFailed | Rendered(durationMs: nat)

  /** A span of the assembled track. `rate` is the playback speed-up applied
      to the rendered audio, `None` when it was appended unchanged. */
  datatype Span =
    | Silence(durationMs: int)
    | Speech(text: string, renderedMs: nat, rate: Option<real>)

  /** Gaps of at most 10 ms (0.01 s) are not filled with silence. */
  const SilenceThresholdMs: int := 10

  /** The speed-up decision: only a rendering longer than a positive nominal
      slot is sped up, by the ratio of the two, clamped to `maxRate`. */
  function SpeedupRate(actualMs: nat, idealMs: int, maxRate: real): Option<real> {
    if actualMs > idealMs && idealMs > 0 then
      var rate := actualMs as real / idealMs as real;
      Some(if rate > maxRate then maxRate else rate)
    else
      None
  }

  lemma SpeedupRateSpec(actualMs: nat, idealMs: int, maxRate: real)
    ensures SpeedupRate(actualMs, idealMs, maxRate).Some? <==> actualMs > idealMs > 0
    ensures SpeedupRate(actualMs, idealMs, maxRate).Some? ==>
              var rate := SpeedupRate(actualMs, idealMs, maxRate).value;
              var ratio := actualMs as real / idealMs as real;
              ratio > 1.0 && rate <= maxRate && rate <= ratio
              && (rate == ratio || rate == maxRate)
  {
    if actualMs > idealMs > 0 {
      var ratio := actualMs as real / idealMs as real;
      assert ratio * idealMs as real == actualMs as real;
    }
  }

  /** The duration a speed-up by `rate` aims at, `actual / rate`, never falls
      short of the nominal slot: it equals the slot when the ratio was not
      clamped and exceeds it when it was (drift is left to later cues). */
  lemma SpeedupTarget(actualMs: nat, idealMs: int, maxRate: real)
    requires maxRate > 0.0
    requires SpeedupRate(actualMs, idealMs, maxRate).Some?
    ensures var rate := SpeedupRate(actualMs, idealMs, maxRate).value;
            var target := actualMs as real / rate;
            target >= idealMs as real
            && (rate == actualMs as real / idealMs as real ==> target == idealMs as real)
            && (rate < actualMs as real / idealMs as real ==> target > idealMs as real)
  {
    var ideal := idealMs as real;
    var actual := actualMs as real;
    var ratio := actual / ideal;
    var rate := SpeedupRate(actualMs, idealMs, maxRate).value;
    assert ratio * ideal == actual;
    assert rate > 0.0;
    var target := actual / rate;
    assert target * rate == actual;
    if rate < ratio {
      assert rate * ideal < ratio * ideal;
      assert target * rate > ideal * rate;
    } else {
      assert rate == ratio;
      assert target * rate == ideal * rate;
    }
  }

  /** The spans one cue appends once its times are read: `gap` runs from
      the clock to the cue's start, `slot` is the cue's nominal duration and
      `text` its normalised text. A silence fills a gap above the threshold;
      then non-empty text that renders is spoken, possibly sped up. */
  function SpansFor(gap: int, slot: int, text: string, render: string -> RenderOutcome, maxRate: real): seq<Span> {
    var silence := if gap > SilenceThresholdMs then [Silence(gap)] else [];
    if text == [] then silence
    else
      match render(text)
      case RenderFailed => silence
      case Rendered(actual) => silence + [Speech(text, actual, SpeedupRate(actual, slot, maxRate))]
  }

  /** The spans one cue appends, given the clock left by the previous cue. */
  function CueSpans(clock: int, cue: Cue, render: string -> RenderOutcome, maxRate: real): seq<Span> {
    var start := ParseTime(cue.startStamp);
    SpansFor(start - clock, ParseTime(cue.endStamp) - start, NormalizeText(cue.text), render, maxRate)
  }

  lemma CueSpansFor(clock: int, cue: Cue, render: string -> RenderOutcome, maxRate: real)
    ensures CueSpans(clock, cue, render, maxRate)
            == SpansFor(ParseTime(cue.startStamp) - clock, ParseTime(cue.endStamp) - ParseTime(cue.startStamp),
                        NormalizeText(cue.text), render, maxRate)
  {
  }

  /** The spans of one cue as silence followed by speech. */
  lemma SpansShape(gap: int, slot: int, text: string, render: string -> RenderOutcome, maxRate: real)
    ensures SpansFor(gap, slot, text, render, maxRate)
            == (if gap > SilenceThresholdMs then [Silence(gap)] else [])
               + (if text != [] && render(text).Rendered?
                  then [Speech(text, render(text).durationMs, SpeedupRate(render(text).durationMs, slot, maxRate))]
                  else [])
  {
  }

  /** A silence span is emitted exactly for a gap above the threshold and
      lasts exactly the gap; a speech span is emitted exactly for a
      non-empty text that renders, and carries that rendering and the
      speed-up decision for the cue's nominal slot. */
  lemma SpansSpec(gap: int, slot: int, text: string, render: string -> RenderOutcome, maxRate: real)
    ensures var spans := SpansFor(gap, slot, text, render, maxRate);
            var speaks := text != [] && render(text).Rendered?;
            |spans| == (if gap > SilenceThresholdMs then 1 else 0) + (if speaks then 1 else 0)
            && (gap > SilenceThresholdMs ==> spans[0] == Silence(gap))
            && (speaks ==>
                  var actual := render(text).durationMs;
                  spans[|spans| - 1] == Speech(text, actual, SpeedupRate(actual, slot, maxRate)))
  {
  }

  /** Every span the engine can emit: silences only above the threshold,
      speech only with normalised non-empty text, and a rate that is a real
      speed-up no larger than `maxRate`, or exactly `maxRate`. */
  predicate WellFormedSpan(span: Span, maxRate: real) {
    match span
    case Silence(d) => d > SilenceThresholdMs
    case Speech(text, rendered, rate) =>
      text != [] && '\n' !in text
      && (rate.Some? ==> rendered > 0 && rate.value <= maxRate && (rate.value > 1.0 || rate.value == maxRate))
  }

  predicate WellFormedTrack(track: seq<Span>, maxRate: real) {
    forall k :: 0 <= k < |track| ==> WellFormedSpan(track[k], maxRate)
  }

  lemma WellFormedAppend(a: seq<Span>, b: seq<Span>, maxRate: real)
    requires WellFormedTrack(a, maxRate) && WellFormedTrack(b, maxRate)
    ensures WellFormedTrack(a + b, maxRate)
  {
    forall k | 0 <= k < |a + b| ensures WellFormedSpan((a + b)[k], maxRate) {
      if k >= |a| {
        assert (a + b)[k] == b[k - |a|];
      }
    }
  }

  /** Given normalised text, every span of a cue is well formed. */
  lemma SpansWellFormed(gap: int, slot: int, text: string, render: string -> RenderOutcome, maxRate: real)
    requires '\n' !in text
    ensures WellFormedTrack(SpansFor(gap, slot, text, render, maxRate), maxRate)
  {
    if text != [] && render(text).Rendered? {
      SpeedupRateSpec(render(text).durationMs, slot, maxRate);
    }
  }

  lemma CueSpansWellFormed(clock: int, cue: Cue, render: string -> RenderOutcome, maxRate: real)
    ensures WellFormedTrack(CueSpans(clock, cue, render, maxRate), maxRate)
  {
    var text := NormalizeText(cue.text);
    NormalizeTextSpec(cue.text);
    var start := ParseTime(cue.startStamp);
    CueSpansFor(clock, cue, render, maxRate);
    SpansWellFormed(start - clock, ParseTime(cue.endStamp) - start, text, render, maxRate);
  }

  // ------------------------------------------------------------ the loop

  /** The loop state of `gerar_dublagem`: the clock (the end of the last
      cue) and the track assembled so far. */
  datatype Timeline = Timeline(clock: int, track: seq<Span>)

  /** What the loop has built after the given cues, in order. */
  function Run(cues: seq<Cue>, render: string -> RenderOutcome, maxRate: real): (t: Timeline)
    ensures t.clock == if cues == [] then 0 else ParseTime(cues[|cues| - 1].endStamp)
    ensures WellFormedTrack(t.track, maxRate)
    decreases |cues|
  {
    if cues == [] then Timeline(0, [])
    else
      var before := Run(cues[..|cues| - 1], render, maxRate);
      var cue := cues[|cues| - 1];
      CueSpansWellFormed(before.clock, cue, render, maxRate);
      WellFormedAppend(before.track, CueSpans(before.clock, cue, render, maxRate), maxRate);
      Timeline(ParseTime(cue.endStamp), before.track + CueSpans(before.clock, cue, render, maxRate))
  }

  /** The last cue appends its spans to what the earlier cues built. */
  lemma RunLast(cues: seq<Cue>, render: string -> RenderOutcome, maxRate: real)
    requires cues != []
    ensures var before := Run(cues[..|cues| - 1], render, maxRate);
            Run(cues, render, maxRate).track
            == before.track + CueSpans(before.clock, cues[|cues| - 1], render, maxRate)
  {
  }

  /** Processing one more cue appends that cue's spans and moves the clock. */
  lemma RunStep(cues: seq<Cue>, i: nat, render: string -> RenderOutcome, maxRate: real)
    requires i < |cues|
    ensures var before := Run(cues[..i], render, maxRate);
            Run(cues[..i + 1], render, maxRate)
            == Timeline(ParseTime(cues[i].endStamp),
                        before.track + CueSpans(before.clock, cues[i], render, maxRate))
  {
    assert cues[..i + 1][..i] == cues[..i];
  }

  /** One pass of the loop body of `gerar_dublagem` for one cue: fill the
      gap before the cue with silence when it exceeds the threshold, skip
      empty text, render, speed up a rendering longer than its slot, append
      it, and move the clock to the cue's nominal end. */
  method ProcessCue(track: seq<Span>, clock: int, cue: Cue, render: string -> RenderOutcome, maxRate: real)
    returns (track': seq<Span>, clock': int)
    ensures track' == track + CueSpans(clock, cue, render, maxRate)
    ensures clock' == ParseTime(cue.endStamp)
  {
    var start := ParseTime(cue.startStamp);
    var end := ParseTime(cue.endStamp);
    var gap := start - clock;
    var text := NormalizeText(cue.text);
    CueSpansFor(clock, cue, render, maxRate);
    SpansShape(gap, end - start, text, render, maxRate);
    track' := track;
    if gap > SilenceThresholdMs {
      track' := track' + [Silence(gap)];
    }
    if text == [] {
      clock' := end;
      return;
    }
    var outcome := render(text);
    if outcome.Rendered? {
      var actual := outcome.durationMs;
      var ideal := end - start;
      var rate: Option<real> := None;
      if actual > ideal && ideal > 0 {
        var r := actual as real / ideal as real;
        if r > maxRate {
          r := maxRate;
        }
        rate := Some(r);
      }
      track' := track' + [Speech(text, actual, rate)];
    }
    clock' := end;
  }

  /** The per-cue loop: the clock starts at 0, each cue may add a silence and
      a speech span, and the clock always moves to the cue's nominal end,
      whether the text was empty, failed to render or rendered. */
  method Dub(cues: seq<Cue>, render: string -> RenderOutcome, maxRate: real)
    returns (track: seq<Span>, clock: int)
    ensures Timeline(clock, track) == Run(cues, render, maxRate)
    ensures clock == if cues == [] then 0 else ParseTime(cues[|cues| - 1].endStamp)
    ensures WellFormedTrack(track, maxRate)
  {
    track := [];
    clock := 0;
    var i := 0;
    while i < |cues|
      invariant 0 <= i <= |cues|
      invariant Timeline(clock, track) == Run(cues[..i], render, maxRate)
    {
      RunStep(cues, i, render, maxRate);
      track, clock := ProcessCue(track, clock, cues[i], render, maxRate);
      i := i + 1;
    }
    assert cues[..i] == cues;
  }

  /** The track only grows by appends: what the first cues produced stays,
      unchanged and in order, at the front of what all cues produce. */
  lemma {:induction false} RunAppendOnly(cues: seq<Cue>, n: nat, render: string -> RenderOutcome, maxRate: real)
    requires n <= |cues|
    ensures Run(cues[..n], render, maxRate).track <= Run(cues, render, maxRate).track
    decreases |cues| - n
  {
    if n < |cues| {
      var shorter := cues[..|cues| - 1];
      assert shorter[..n] == cues[..n];
      RunAppendOnly(shorter, n, render, maxRate);
    } else {
      assert cues[..n] == cues;
    }
  }

  /** The clock entering cue `i + 1` is cue `i`'s nominal end, whatever the
      renderer did with cue `i` or any earlier cue. */
  lemma ClockIgnoresRenderer(cues: seq<Cue>, i: nat, render1: string -> RenderOutcome, render2: string -> RenderOutcome, maxRate: real)
    requires i < |cues|
    ensures Run(cues[..i + 1], render1, maxRate).clock == ParseTime(cues[i].endStamp)
    ensures Run(cues[..i + 1], render1, maxRate).clock == Run(cues[..i + 1], render2, maxRate).clock
  {
    assert cues[..i + 1][i] == cues[i];
  }

  /** Number of cues whose normalised text is non-empty and renders. */
  function SpokenCues(cues: seq<Cue>, render: string -> RenderOutcome): nat {
    if cues == [] then 0
    else
      var text := NormalizeText(cues[|cues| - 1].text);
      SpokenCues(cues[..|cues| - 1], render) + (if text != [] && render(text).Rendered? then 1 else 0)
  }

  function SpeechCount(track: seq<Span>): nat {
    if track == [] then 0
    else SpeechCount(track[..|track| - 1]) + (if track[|track| - 1].Speech? then 1 else 0)
  }

  lemma {:induction false} SpeechCountAppend(a: seq<Span>, b: seq<Span>)
    ensures SpeechCount(a + b) == SpeechCount(a) + SpeechCount(b)
    decreases |b|
  {
    if b != [] {
      SpeechCountAppend(a, b[..|b| - 1]);
      assert (a + b)[..|a + b| - 1] == a + b[..|b| - 1];
    } else {
      assert a + b == a;
    }
  }

  /** A cue contributes one speech span when its text renders, none
      otherwise. */
  lemma SpansSpeechCount(gap: int, slot: int, text: string, render: string -> RenderOutcome, maxRate: real)
    ensures SpeechCount(SpansFor(gap, slot, text, render, maxRate))
            == if text != [] && render(text).Rendered? then 1 else 0
  {
    var silence: seq<Span> := if gap > SilenceThresholdMs then [Silence(gap)] else [];
    assert SpeechCount(silence) == 0 by {
      if silence != [] {
        assert silence[..0] == [];
      }
    }
    if text != [] && render(text).Rendered? {
      var spans := SpansFor(gap, slot, text, render, maxRate);
      assert spans[..|spans| - 1] == silence;
    }
  }

  /** One speech span per cue that has text and renders: empty cues and
      renderer failures contribute no speech at all. */
  lemma {:induction false} SpeechPerSpokenCue(cues: seq<Cue>, render: string -> RenderOutcome, maxRate: real)
    ensures SpeechCount(Run(cues, render, maxRate).track) == SpokenCues(cues, render)
    decreases |cues|
  {
    if cues != [] {
      var init := cues[..|cues| - 1];
      var before := Run(init, render, maxRate);
      var cue := cues[|cues| - 1];
      var text := NormalizeText(cue.text);
      var spans := CueSpans(before.clock, cue, render, maxRate);
      calc {
        SpeechCount(Run(cues, render, maxRate).track);
        { RunLast(cues, render, maxRate); }
        SpeechCount(before.track + spans);
        { SpeechCountAppend(before.track, spans); }
        SpeechCount(before.track) + SpeechCount(spans);
        { SpeechPerSpokenCue(init, render, maxRate); }
        SpokenCues(init, render) + SpeechCount(spans);
        { CueSpeechCount(before.clock, cue, render, maxRate); }
        SpokenCues(init, render) + (if text != [] && render(text).Rendered? then 1 else 0);
        { SpokenCuesLast(cues, render); }
        SpokenCues(cues, render);
      }
    }
  }

  /** A cue contributes one speech span exactly when its text is not empty
      and renders. */
  lemma CueSpeechCount(clock: int, cue: Cue, render: string -> RenderOutcome, maxRate: real)
    ensures var text := NormalizeText(cue.text);
            SpeechCount(CueSpans(clock, cue, render, maxRate))
            == if text != [] && render(text).Rendered? then 1 else 0
  {
    var start := ParseTime(cue.startStamp);
    CueSpansFor(clock, cue, render, maxRate);
    SpansSpeechCount(start - clock, ParseTime(cue.endStamp) - start, NormalizeText(cue.text), render, maxRate);
  }

  lemma SpokenCuesLast(cues: seq<Cue>, render: string -> RenderOutcome)
    requires cues != []
    ensures var text := NormalizeText(cues[|cues| - 1].text);
            SpokenCues(cues, render)
            == SpokenCues(cues[..|cues| - 1], render) + (if text != [] && render(text).Rendered? then 1 else 0)
  {
  }

  /** A cue with nothing to say, starting within the threshold of the
      clock, appends nothing. */
  lemma EmptyCue(clock: int, cue: Cue, render: string -> RenderOutcome, maxRate: real)
    requires ParseTime(cue.startStamp) - clock <= SilenceThresholdMs
    requires AllSpace(cue.text)
    ensures CueSpans(clock, cue, render, maxRate) == []
  {
    NormalizeTextSpec(cue.text);
  }

  /** A cue starting within the threshold of the clock, whose text renders
      no longer than its slot, appends exactly its unchanged speech. */
  lemma FittingCue(clock: int, cue: Cue, render: string -> RenderOutcome, maxRate: real)
    requires ParseTime(cue.startStamp) - clock <= SilenceThresholdMs
    requires NormalizeText(cue.text) != []
    requires render(NormalizeText(cue.text)).Rendered?
    requires render(NormalizeText(cue.text)).durationMs <= ParseTime(cue.endStamp) - ParseTime(cue.startStamp)
    ensures CueSpans(clock, cue, render, maxRate)
            == [Speech(NormalizeText(cue.text), render(NormalizeText(cue.text)).durationMs, None)]
  {
  }

  /** A rendering three times its one-second slot is sped up by the clamped
      rate 1.5, aiming at two seconds rather than one. */
  lemma ClampedExample()
    ensures SpeedupRate(3000, 1000, 1.5) == Some(1.5)
    ensures 3000.0 / SpeedupRate(3000, 1000, 1.5).value == 2000.0
    ensures 3000.0 / SpeedupRate(3000, 1000, 1.5).value > 1000.0
  {
  }

  /** Three cues, 0-2 s "A", 2-3 s empty and 3-5 s "B", each spoken text
      rendering in one second: "A" and "B" are spoken unchanged, the empty
      cue adds nothing, no gap is filled with silence, and the clock ends at
      5 s. The cues' timestamps and texts are given by what they read as. */
  lemma ThreeCueScenario(a: Cue, empty: Cue, b: Cue, render: string -> RenderOutcome)
    requires ParseTime(a.startStamp) == 0 && ParseTime(a.endStamp) == 2000
    requires ParseTime(empty.startStamp) == 2000 && ParseTime(empty.endStamp) == 3000
    requires ParseTime(b.startStamp) == 3000 && ParseTime(b.endStamp) == 5000
    requires NormalizeText(a.text) == "A" && NormalizeText(empty.text) == [] && NormalizeText(b.text) == "B"
    requires render("A") == Rendered(1000) && render("B") == Rendered(1000)
    ensures Run([a, empty, b], render, 1.5) == Timeline(5000, [Speech("A", 1000, None), Speech("B", 1000, None)])
  {
    ScenarioSpans(a, empty, b, render);
    RunThree([a, empty, b], render, 1.5);
  }

  /** Three cues run one after the other, each from the clock the previous
      one left. */
  lemma RunThree(cues: seq<Cue>, render: string -> RenderOutcome, maxRate: real)
    requires |cues| == 3
    ensures var end0 := ParseTime(cues[0].endStamp);
            var end1 := ParseTime(cues[1].endStamp);
            Run(cues, render, maxRate)
            == Timeline(ParseTime(cues[2].endStamp),
                        CueSpans(0, cues[0], render, maxRate) + CueSpans(end0, cues[1], render, maxRate)
                        + CueSpans(end1, cues[2], render, maxRate))
  {
    var end0 := ParseTime(cues[0].endStamp);
    var end1 := ParseTime(cues[1].endStamp);
    var s0 := CueSpans(0, cues[0], render, maxRate);
    var s1 := CueSpans(end0, cues[1], render, maxRate);
    assert Run(cues[..1], render, maxRate) == Timeline(end0, s0) by {
      assert cues[..0] == [];
      RunStep(cues, 0, render, maxRate);
    }
    assert Run(cues[..2], render, maxRate) == Timeline(end1, s0 + s1) by {
      RunStep(cues, 1, render, maxRate);
    }
    RunStep(cues, 2, render, maxRate);
    assert cues[..3] == cues;
  }

  /** The spans each cue of the three-cue scenario adds. */
  lemma ScenarioSpans(a: Cue, empty: Cue, b: Cue, render: string -> RenderOutcome)
    requires ParseTime(a.startStamp) == 0 && ParseTime(a.endStamp) == 2000
    requires ParseTime(empty.startStamp) == 2000 && ParseTime(b.startStamp) == 3000
    requires ParseTime(b.endStamp) == 5000
    requires NormalizeText(a.text) == "A" && NormalizeText(empty.text) == [] && NormalizeText(b.text) == "B"
    requires render("A") == Rendered(1000) && render("B") == Rendered(1000)
    ensures CueSpans(0, a, render, 1.5) == [Speech("A", 1000, None)]
    ensures CueSpans(2000, empty, render, 1.5) == []
    ensures CueSpans(3000, b, render, 1.5) == [Speech("B", 1000, None)]
  {
    CueSpansFor(0, a, render, 1.5);
    CueSpansFor(2000, empty, render, 1.5);
    CueSpansFor(3000, b, render, 1.5);
  }
}

=== FILE: exact_pairing.dfy ===
/** `processar_pasta` of processar_lote.py: a video and a subtitle are
    paired when their names agree once the extension is removed; the shared
    base names are processed in ascending order. */
module ExactPairing {
  import opened Text
  import opened FileNames
  import opened Batch

  /** `f` is a file of extension `ext` filed under the base name `k`. */
  predicate Keyed(f: string, ext: string, k: string) {
    HasExtension(f, ext) && Stem(f) == k
  }

  /** `{splitext(f)[0]: f for f in listing if f.lower().endswith(ext)}`:
      a later file with the same base name replaces an earlier one. */
  function Index(listing: seq<string>, ext: string): map<string, string> {
    if listing == [] then map[]
    else
      var m := Index(listing[..|listing| - 1], ext);
      var f := listing[|listing| - 1];
      if HasExtension(f, ext) then m[Stem(f) := f] else m
  }

  /** Some file of the listing is of extension `ext` and filed under `k`. */
  predicate AnyKeyed(listing: seq<string>, ext: string, k: string)
    decreases |listing|
  {
    listing != []
    && (Keyed(listing[|listing| - 1], ext, k) || AnyKeyed(listing[..|listing| - 1], ext, k))
  }

  lemma {:induction false} AnyKeyedWitness(listing: seq<string>, ext: string, k: string)
    requires AnyKeyed(listing, ext, k)
    ensures exists i :: 0 <= i < |listing| && Keyed(listing[i], ext, k)
    decreases |listing|
  {
    var n := |listing| - 1;
    if Keyed(listing[n], ext, k) {
      assert 0 <= n < |listing| && Keyed(listing[n], ext, k);
    } else {
      var init := listing[..n];
      AnyKeyedWitness(init, ext, k);
      var i :| 0 <= i < |init| && Keyed(init[i], ext, k);
      assert listing[i] == init[i];
    }
  }

  lemma {:induction false} AnyKeyedAt(listing: seq<string>, ext: string, k: string, i: int)
    requires 0 <= i < |listing| && Keyed(listing[i], ext, k)
    ensures AnyKeyed(listing, ext, k)
    decreases |listing|
  {
    var n := |listing| - 1;
    if i < n {
      var init := listing[..n];
      assert init[i] == listing[i];
      AnyKeyedAt(init, ext, k, i);
    }
  }

  lemma AnyKeyedSpec(listing: seq<string>, ext: string, k: string)
    ensures AnyKeyed(listing, ext, k) <==> exists i :: 0 <= i < |listing| && Keyed(listing[i], ext, k)
  {
    if AnyKeyed(listing, ext, k) {
      AnyKeyedWitness(listing, ext, k);
    }
    if exists i :: 0 <= i < |listing| && Keyed(listing[i], ext, k) {
      var i :| 0 <= i < |listing| && Keyed(listing[i], ext, k);
      AnyKeyedAt(listing, ext, k, i);
    }
  }

  lemma {:induction false} IndexHasKey(listing: seq<string>, ext: string, k: string)
    ensures k in Index(listing, ext) <==> AnyKeyed(listing, ext, k)
    decreases |listing|
  {
    if listing != [] {
      IndexHasKey(listing[..|listing| - 1], ext, k);
    }
  }

  /** A base name is a key exactly when some listed file of that extension
      has it. */
  lemma IndexKeys(listing: seq<string>, ext: string, k: string)
    ensures k in Index(listing, ext) <==> exists i :: 0 <= i < |listing| && Keyed(listing[i], ext, k)
  {
    IndexHasKey(listing, ext, k);
    AnyKeyedSpec(listing, ext, k);
  }

  /** A base name maps to the LAST listed file of that extension filed
      under it. */
  lemma {:induction false} IndexLast(listing: seq<string>, ext: string, k: string)
    requires k in Index(listing, ext)
    ensures exists i :: LastKeyedAt(listing, ext, k, Index(listing, ext)[k], i)
    decreases |listing|
  {
    var n := |listing| - 1;
    var init := listing[..n];
    var f := listing[n];
    if Keyed(f, ext, k) {
      assert Index(listing, ext)[k] == f;
      assert LastKeyedAt(listing, ext, k, f, n);
    } else {
      assert k in Index(init, ext) && Index(listing, ext)[k] == Index(init, ext)[k];
      IndexLast(init, ext, k);
      var i :| LastKeyedAt(init, ext, k, Index(init, ext)[k], i);
      assert listing[i] == init[i];
      forall j | i < j < |listing| ensures !Keyed(listing[j], ext, k) {
        if j < n {
          assert listing[j] == init[j];
        }
      }
      assert LastKeyedAt(listing, ext, k, Index(listing, ext)[k], i);
    }
  }

  /** `f` is the file at position `i` of the listing, filed under `k` with
      extension `ext`, and no later file is. */
  predicate LastKeyedAt(listing: seq<string>, ext: string, k: string, f: string, i: int) {
    0 <= i < |listing| && listing[i] == f && Keyed(f, ext, k)
    && forall j :: i < j < |listing| ==> !Keyed(listing[j], ext, k)
  }

  /** Ascending order without repetitions. */
  predicate StrictlySorted(s: seq<string>) {
    forall i, j :: 0 <= i < j < |s| ==> LexLess(s[i], s[j])
  }

  /** `x` added to an ascending sequence of distinct names. */
  function Insert(s: seq<string>, x: string): (r: seq<string>)
    requires StrictlySorted(s)
    ensures StrictlySorted(r)
    ensures forall y :: y in r <==> y in s || y == x
  {
    if s == [] then [x]
    else if x == s[0] then s
    else if LexLess(x, s[0]) then
      assert forall y :: y in s ==> LexLess(x, y) by {
        forall y | y in s ensures LexLess(x, y) {
          var i :| 0 <= i < |s| && s[i] == y;
          if i > 0 {
            LexTransitive(x, s[0], y);
          }
        }
      }
      InsertFrontSorted(s, x);
      [x] + s
    else
      LexTotal(x, s[0]);
      var rest := Insert(s[1..], x);
      assert forall y :: y in rest ==> LexLess(s[0], y) by {
        forall y | y in rest ensures LexLess(s[0], y) {
          if y != x {
            var i :| 1 <= i < |s| && s[i] == y;
          }
        }
      }
      InsertFrontSorted(rest, s[0]);
      [s[0]] + rest
  }

  lemma InsertFrontSorted(s: seq<string>, x: string)
    requires StrictlySorted(s)
    requires forall y :: y in s ==> LexLess(x, y)
    ensures StrictlySorted([x] + s)
  {
    var r := [x] + s;
    forall i, j | 0 <= i < j < |r| ensures LexLess(r[i], r[j]) {
      assert r[j] == s[j - 1];
      if i > 0 {
        assert r[i] == s[i - 1];
      }
    }
  }

  /** `sorted(names)` with repetitions dropped: the ascending list of the
      names' distinct values. */
  function SortedNames(names: seq<string>): (r: seq<string>)
    ensures StrictlySorted(r)
    ensures forall y :: y in r <==> y in names
  {
    if names == [] then []
    else
      var init := names[..|names| - 1];
      assert forall y :: y in names <==> y in init || y == names[|names| - 1];
      Insert(SortedNames(init), names[|names| - 1])
  }

  /** Two ascending lists of distinct names with the same members are the
      same list: the processing order does not depend on how the set of
      shared names happens to be enumerated. */
  lemma {:induction false} StrictlySortedUnique(a: seq<string>, b: seq<string>)
    requires StrictlySorted(a) && StrictlySorted(b)
    requires forall y :: y in a <==> y in b
    ensures a == b
  {
    if a != [] {
      assert a[0] in a;
    }
    if b != [] {
      assert b[0] in b;
    }
    if a != [] && b != [] {
      assert a[0] == b[0] by {
        assert b[0] in a && a[0] in b;
        if a[0] != b[0] {
          var i :| 0 <= i < |a| && a[i] == b[0];
          var j :| 0 <= j < |b| && b[j] == a[0];
          assert i > 0 && j > 0;
          LexAsymmetric(a[0], b[0]);
        }
      }
      forall y ensures y in a[1..] <==> y in b[1..] {
        if y in a[1..] {
          var i :| 1 <= i < |a| && a[i] == y;
          LexIrreflexive(y);
          assert y in b;
          var j :| 0 <= j < |b| && b[j] == y;
          assert j != 0;
          assert b[1..][j - 1] == y;
        }
        if y in b[1..] {
          var j :| 1 <= j < |b| && b[j] == y;
          LexIrreflexive(y);
          assert y in a;
          var i :| 0 <= i < |a| && a[i] == y;
          assert i != 0;
          assert a[1..][i - 1] == y;
        }
      }
      StrictlySortedUnique(a[1..], b[1..]);
      assert a == [a[0]] + a[1..] && b == [b[0]] + b[1..];
    }
  }

  /** `set(videos.keys()) & set(legendas.keys())` */
  function CommonKeys(listing: seq<string>): set<string> {
    Index(listing, ".mp4").Keys * Index(listing, ".vtt").Keys
  }

  /** The base names of the listed videos that also have a subtitle, in
      listing order (possibly repeated). */
  function VideoKeysWithSubtitle(listing: seq<string>, subtitles: map<string, string>): seq<string> {
    if listing == [] then []
    else
      var f := listing[|listing| - 1];
      VideoKeysWithSubtitle(listing[..|listing| - 1], subtitles)
      + if IsVideo(f) && Stem(f) in subtitles then [Stem(f)] else []
  }

  /** A base name is listed exactly when it has a subtitle and some listed
      video is filed under it. */
  lemma {:induction false} VideoKeysWithSubtitleSpec(listing: seq<string>, subtitles: map<string, string>, k: string)
    ensures k in VideoKeysWithSubtitle(listing, subtitles) <==> k in subtitles && AnyKeyed(listing, ".mp4", k)
    decreases |listing|
  {
    if listing != [] {
      VideoKeysWithSubtitleSpec(listing[..|listing| - 1], subtitles, k);
    }
  }

  /** `sorted(list(nomes_em_comum))`: every shared base name exactly once,
      in ascending order. */
  function CommonNames(listing: seq<string>): (r: seq<string>)
    ensures StrictlySorted(r)
    ensures forall k :: k in r <==> k in CommonKeys(listing)
    ensures forall i :: 0 <= i < |r| ==> r[i] in CommonKeys(listing)
  {
    var subtitles := Index(listing, ".vtt");
    var r := SortedNames(VideoKeysWithSubtitle(listing, subtitles));
    assert forall k :: k in r <==> k in CommonKeys(listing) by {
      forall k ensures k in r <==> k in CommonKeys(listing) {
        VideoKeysWithSubtitleSpec(listing, subtitles, k);
        IndexHasKey(listing, ".mp4", k);
      }
    }
    assert forall i :: 0 <= i < |r| ==> r[i] in CommonKeys(listing) by {
      forall i | 0 <= i < |r| ensures r[i] in CommonKeys(listing) {
        assert r[i] in r;
      }
    }
    r
  }

  /** The pairs in processing order: for base `b`, the video and the
      subtitle filed under `b`. */
  function ExactJobs(listing: seq<string>): (jobs: seq<Job>)
    ensures |jobs| == |CommonNames(listing)|
    ensures forall i :: 0 <= i < |jobs| ==> jobs[i].base == CommonNames(listing)[i]
  {
    var names := CommonNames(listing);
    var videos := Index(listing, ".mp4");
    var subtitles := Index(listing, ".vtt");
    seq(|names|, i requires 0 <= i < |names| => Job(videos[names[i]], subtitles[names[i]], names[i]))
  }

  /** Each pair is a shared base name together with the last-listed video
      and the last-listed subtitle filed under it; the base names strictly
      increase along the processing order, so none is processed twice. */
  lemma ExactJobsSpec(listing: seq<string>, n: nat)
    requires n < |ExactJobs(listing)|
    ensures var job := ExactJobs(listing)[n];
            job.base in CommonKeys(listing)
            && (exists i :: LastKeyedAt(listing, ".mp4", job.base, job.video, i))
            && (exists i :: LastKeyedAt(listing, ".vtt", job.base, job.subtitle, i))
            && (forall m :: 0 <= m < n ==> LexLess(ExactJobs(listing)[m].base, job.base))
  {
    var job := ExactJobs(listing)[n];
    var k := job.base;
    assert k in CommonKeys(listing);
    IndexLast(listing, ".mp4", k);
    IndexLast(listing, ".vtt", k);
  }

  /** `processar_pasta` of processar_lote.py. `listing` is the folder's
      listing, `None` when the folder does not exist. */
  method ProcessFolder(dir: string, listing: Option<seq<string>>, generate: (string, string) -> bool, keepAudio: bool)
    returns (trace: seq<Action>)
    ensures listing.None? ==> trace == []
    ensures listing.Some? ==> trace == Actions(dir, ExactJobs(listing.value), generate, keepAudio)
    ensures listing.Some? && CommonKeys(listing.value) == {} ==> trace == []
  {
    if listing.None? {
      return [];
    }
    var files := listing.value;
    var names := CommonNames(files);
    if |names| == 0 {
      return [];
    }
    var videos := Index(files, ".mp4");
    var subtitles := Index(files, ".vtt");
    var jobs := seq(|names|, i requires 0 <= i < |names| => Job(videos[names[i]], subtitles[names[i]], names[i]));
    trace := RunJobs(dir, jobs, generate, keepAudio);
    assert names[0] in CommonKeys(files);
  }
}

=== FILE: filenames.dfy ===
/** File-name rules shared by both batch scripts (processar_lote.py and
    processar_lote_Inteligente.py): extension tests, `os.path.splitext`,
    POSIX `os.path.join`, Python's string ordering, and the names derived for the
    temporary audio and the dubbed video. Names are entries of a directory
    listing, so they never contain `/`. */
module FileNames {

  function LowerChar(c: char): char {
    if 'A' <= c <= 'Z' then (c as int + 32) as char else c
  }

  /** `str.lower()` on ASCII letters. Python also lowers other letters, but
      no non-ASCII letter lowers to `.`, `m`, `p`, `4`, `v` or `t`, so the
      suffix tests below come out the same. */
  function Lower(s: string): (r: string)
    ensures |r| == |s|
  {
    if s == [] then [] else [LowerChar(s[0])] + Lower(s[1..])
  }

  /** `Lower` lowers each character on its own. */
  lemma {:induction false} LowerChars(s: string)
    ensures forall i :: 0 <= i < |s| ==> Lower(s)[i] == LowerChar(s[i])
  {
    if s != [] {
      LowerChars(s[1..]);
      assert forall i :: 1 <= i < |s| ==> Lower(s)[i] == Lower(s[1..])[i - 1];
    }
  }

  predicate EndsWith(s: string, suffix: string) {
    |suffix| <= |s| && s[|s| - |suffix|..] == suffix
  }

  /** `f.lower().endswith(ext)` */
  predicate HasExtension(f: string, ext: string) {
    EndsWith(Lower(f), ext)
  }

  predicate IsVideo(f: string) {
    HasExtension(f, ".mp4")
  }

  predicate IsSubtitle(f: string) {
    HasExtension(f, ".vtt")
  }

  /** Index of the last `.` in `s`, if any. */
  function LastDot(s: string): (r: int)
    ensures -1 <= r < |s|
    ensures r >= 0 ==> s[r] == '.'
  {
    if s == [] then -1
    else if s[|s| - 1] == '.' then |s| - 1
    else LastDot(s[..|s| - 1])
  }

  /** No `.` follows the one `LastDot` finds, and there is none at all when
      it finds none. */
  lemma {:induction false} LastDotIsLast(s: string)
    ensures forall i :: LastDot(s) < i < |s| ==> s[i] != '.'
    decreases |s|
  {
    if s != [] && s[|s| - 1] != '.' {
      var init := s[..|s| - 1];
      LastDotIsLast(init);
      assert forall i :: 0 <= i < |init| ==> s[i] == init[i];
    }
  }

  /** `s` is made only of dots. */
  predicate OnlyDots(s: string) {
    s == [] || (s[0] == '.' && OnlyDots(s[1..]))
  }

  lemma {:induction false} OnlyDotsSpec(s: string)
    ensures OnlyDots(s) <==> forall k :: 0 <= k < |s| ==> s[k] == '.'
  {
    if s != [] {
      OnlyDotsSpec(s[1..]);
      assert forall k :: 1 <= k < |s| ==> s[k] == s[1..][k - 1];
    }
  }

  /** `os.path.splitext(f)[0]`: the name without its last extension, where a
      name made only of dots before its last dot (`.mp4`, `..vtt`) has no
      extension at all. */
  function Stem(f: string): string {
    var d := LastDot(f);
    if d > 0 && !OnlyDots(f[..d]) then f[..d] else f
  }

  /** The extension `Stem` removes is the last `.` and what follows it. */
  lemma StemSpec(f: string)
    ensures Stem(f) <= f
    ensures Stem(f) != f ==> f[|Stem(f)|] == '.' && '.' !in f[|Stem(f)| + 1..]
    ensures Stem(f) != f ==> exists k :: 0 <= k < |Stem(f)| && Stem(f)[k] != '.'
  {
    var d := LastDot(f);
    if Stem(f) != f {
      assert |Stem(f)| == d;
      LastDotIsLast(f);
      var tail := f[d + 1..];
      forall i | 0 <= i < |tail| ensures tail[i] != '.' {
        assert tail[i] == f[d + 1 + i];
      }
      OnlyDotsSpec(f[..d]);
    }
  }

  /** A name `b.e`, where `e` has no dot and `b` is not all dots, has stem
      `b`: the key under which the batch scripts file it. */
  lemma StemOfNameWithExtension(b: string, e: string)
    requires '.' !in e
    requires exists k :: 0 <= k < |b| && b[k] != '.'
    ensures Stem(b + "." + e) == b
  {
    var f := b + "." + e;
    assert f[|b|] == '.';
    forall i | |b| < i < |f| ensures f[i] != '.' {
      assert f[i] == e[i - |b| - 1];
    }
    LastDotIs(f, |b|);
    assert f[..|b|] == b;
    OnlyDotsSpec(b);
  }

  lemma {:induction false} LastDotIs(s: string, d: nat)
    requires d < |s| && s[d] == '.'
    requires forall i :: d < i < |s| ==> s[i] != '.'
    ensures LastDot(s) == d
    decreases |s|
  {
    if d < |s| - 1 {
      var init := s[..|s| - 1];
      assert forall i :: d < i < |init| ==> init[i] == s[i];
      LastDotIs(init, d);
    }
  }

  /** A name without any dot is its own stem. */
  lemma StemWithoutDot(f: string)
    requires '.' !in f
    ensures Stem(f) == f
  {
  }

  /** POSIX `os.path.join(dir, name)` (posixpath) for two components. */
  function Join(dir: string, name: string): string {
    if name != [] && name[0] == '/' then name
    else if dir == [] || dir[|dir| - 1] == '/' then dir + name
    else dir + "/" + name
  }

  /** The joined path ends with the name. A relative name follows the
      folder, separated by exactly one `/` when the folder is not empty; an
      absolute name discards the folder. */
  lemma JoinSpec(dir: string, name: string)
    ensures EndsWith(Join(dir, name), name)
    ensures name != [] && name[0] == '/' ==> Join(dir, name) == name
    ensures (name == [] || name[0] != '/') ==> dir <= Join(dir, name)
    ensures (name == [] || name[0] != '/') && dir != [] ==>
              var j := Join(dir, name);
              |j| > |name| && j[|j| - |name| - 1] == '/'
              && |j| == |dir| + |name| + (if dir[|dir| - 1] == '/' then 0 else 1)
  {
    var j := Join(dir, name);
    if name == [] || name[0] != '/' {
      if dir == [] || dir[|dir| - 1] == '/' {
        assert j == dir + name && j[..|dir|] == dir && j[|dir|..] == name;
      } else {
        assert j == dir + "/" + name && j[..|dir|] == dir && j[|dir| + 1..] == name;
      }
    }
  }

  /** Python's `<` on strings: lexicographic by code point, a proper
      prefix coming first. */
  predicate LexLess(a: string, b: string)
    decreases |a|
  {
    b != [] && (a == [] || a[0] < b[0] || (a[0] == b[0] && LexLess(a[1..], b[1..])))
  }

  lemma {:induction false} LexIrreflexive(a: string)
    ensures !LexLess(a, a)
  {
    if a != [] {
      LexIrreflexive(a[1..]);
    }
  }

  lemma {:induction false} LexTransitive(a: string, b: string, c: string)
    requires LexLess(a, b) && LexLess(b, c)
    ensures LexLess(a, c)
    decreases |a|
  {
    if a != [] && a[0] == b[0] && b[0] == c[0] {
      LexTransitive(a[1..], b[1..], c[1..]);
    }
  }

  lemma {:induction false} LexTotal(a: string, b: string)
    ensures a == b || LexLess(a, b) || LexLess(b, a)
    decreases |a|
  {
    if a != [] && b != [] && a[0] == b[0] {
      LexTotal(a[1..], b[1..]);
      if a[1..] == b[1..] {
        assert a == [a[0]] + a[1..] && b == [b[0]] + b[1..];
      }
    }
  }

  lemma LexAsymmetric(a: string, b: string)
    requires LexLess(a, b)
    ensures !LexLess(b, a)
  {
    if LexLess(b, a) {
      LexTransitive(a, b, a);
      LexIrreflexive(a);
    }
  }

  /** `f"{base}.dub_temp.mp3"` joined to the folder. */
  function TempAudioPath(dir: string, base: string): string {
    Join(dir, base + ".dub_temp.mp3")
  }

  /** `f"{base}_dublado.mp4"` joined to the folder. */
  function OutputVideoPath(dir: string, base: string): string {
    Join(dir, base + "_dublado.mp4")
  }
}

=== FILE: prefix_pairing.dfy ===
/** `processar_pasta` of processar_lote_Inteligente.py: each video is
    paired with the first listed subtitle whose base name starts with the
    video's base name; the pairs are processed in sorted order. */
module PrefixPairing {
  import opened Text
  import opened FileNames
  import opened Batch

  /** `[f for f in listing if f.lower().endswith('.mp4')]`: the listed
      videos, in listing order. */
  function Videos(listing: seq<string>): (videos: seq<string>)
    ensures |videos| <= |listing|
    ensures forall f :: f in videos <==> f in listing && IsVideo(f)
  {
    if listing == [] then []
    else
      var f := listing[|listing| - 1];
      var init := listing[..|listing| - 1];
      assert forall g :: g in listing <==> g in init || g == f;
      Videos(init) + if IsVideo(f) then [f] else []
  }

  /** The videos of two listings read one after the other are those of
      the first followed by those of the second: together with
      `Videos([f])`, which is `[f]` for a video and `[]` otherwise, this
      fixes the list to the listing's videos in listing order. */
  lemma {:induction false} VideosAppend(a: seq<string>, b: seq<string>)
    ensures Videos(a + b) == Videos(a) + Videos(b)
    decreases |b|
  {
    if b == [] {
      assert a + b == a;
    } else {
      var init := b[..|b| - 1];
      var f := b[|b| - 1];
      var last := if IsVideo(f) then [f] else [];
      VideosAppend(a, init);
      assert (a + b)[..|a + b| - 1] == a + init;
      assert (a + b)[|a + b| - 1] == f;
      calc {
        Videos(a + b);
        Videos(a + init) + last;
        Videos(a) + Videos(init) + last;
        { assert Videos(a) + Videos(init) + last == Videos(a) + (Videos(init) + last); }
        Videos(a) + (Videos(init) + last);
        Videos(a) + Videos(b);
      }
    }
  }

  /** The test of the inner loop: `f` is a subtitle whose base name starts
      with `base`. */
  predicate Matches(f: string, base: string) {
    IsSubtitle(f) && base <= Stem(f)
  }

  /** The subtitle the inner loop settles on for a video of base name
      `base`: the first matching file in listing order. */
  function FirstSubtitle(listing: seq<string>, base: string): (r: Option<string>)
    ensures r.None? <==> forall i :: 0 <= i < |listing| ==> !Matches(listing[i], base)
    ensures r.Some? ==> exists i :: 0 <= i < |listing| && listing[i] == r.value && Matches(r.value, base)
                                   && forall j :: 0 <= j < i ==> !Matches(listing[j], base)
  {
    if listing == [] then None
    else if Matches(listing[0], base) then
      assert listing[0] == listing[0];
      Some(listing[0])
    else
      var r := FirstSubtitle(listing[1..], base);
      assert forall i :: 1 <= i < |listing| ==> listing[i] == listing[1..][i - 1];
      if r.Some? then
        var i :| 0 <= i < |listing[1..]| && listing[1..][i] == r.value && Matches(r.value, base)
                 && forall j :: 0 <= j < i ==> !Matches(listing[1..][j], base);
        assert listing[i + 1] == r.value;
        assert forall j :: 1 <= j < i + 1 ==> !Matches(listing[j], base);
        r
      else
        r
  }

  /** The pairs the search collects for `videos`, in the order of
      `videos`; a video without a matching subtitle contributes none. */
  function PairsOf(videos: seq<string>, listing: seq<string>): seq<(string, string)> {
    if videos == [] then []
    else
      var v := videos[|videos| - 1];
      PairsOf(videos[..|videos| - 1], listing)
      + match FirstSubtitle(listing, Stem(v))
        case Some(s) => [(v, s)]
        case None => []
  }

  /** `pares_encontrados` after the search. */
  function Pairs(listing: seq<string>): seq<(string, string)> {
    PairsOf(Videos(listing), listing)
  }

  /** The inner loop of lines 36-42: scan the listing and stop at the
      first matching subtitle. */
  method FindSubtitle(listing: seq<string>, base: string) returns (found: Option<string>)
    ensures found == FirstSubtitle(listing, base)
  {
    found := None;
    var j := 0;
    while j < |listing|
      invariant 0 <= j <= |listing|
      invariant found.None? ==> FirstSubtitle(listing[j..], base) == FirstSubtitle(listing, base)
      invariant found.Some? ==> found == FirstSubtitle(listing, base)
    {
      if IsSubtitle(listing[j]) && base <= Stem(listing[j]) {
        found := Some(listing[j]);
        break;
      }
      assert listing[j..][1..] == listing[j + 1..];
      j := j + 1;
    }
  }

  /** The search of lines 33-48: one subtitle lookup per video, in the
      order of the videos. */
  method FindPairs(videos: seq<string>, listing: seq<string>) returns (pairs: seq<(string, string)>)
    ensures pairs == PairsOf(videos, listing)
  {
    pairs := [];
    var v := 0;
    while v < |videos|
      invariant 0 <= v <= |videos|
      invariant pairs == PairsOf(videos[..v], listing)
    {
      var video := videos[v];
      PairsOfStep(videos, v, listing);
      var found := FindSubtitle(listing, Stem(video));
      // A matched name ends in `.vtt`, so it is never the empty (false) string.
      if found.Some? {
        pairs := pairs + [(video, found.value)];
      }
      v := v + 1;
    }
    assert videos[..v] == videos;
  }

  lemma PairsOfStep(videos: seq<string>, v: nat, listing: seq<string>)
    requires v < |videos|
    ensures PairsOf(videos[..v + 1], listing)
            == PairsOf(videos[..v], listing)
               + match FirstSubtitle(listing, Stem(videos[v]))
                 case Some(s) => [(videos[v], s)]
                 case None => []
  {
    assert videos[..v + 1][..v] == videos[..v];
  }

  /** Every pair is a listed video with the first matching subtitle of its
      base name, and a listed video is paired exactly when some listed
      subtitle matches it. */
  lemma {:induction false} PairsOfSpec(videos: seq<string>, listing: seq<string>)
    ensures |PairsOf(videos, listing)| <= |videos|
    ensures forall p :: p in PairsOf(videos, listing) ==>
              p.0 in videos && FirstSubtitle(listing, Stem(p.0)) == Some(p.1)
    ensures forall v :: v in videos && FirstSubtitle(listing, Stem(v)).Some? ==>
              (v, FirstSubtitle(listing, Stem(v)).value) in PairsOf(videos, listing)
    decreases |videos|
  {
    if videos != [] {
      var init := videos[..|videos| - 1];
      var v := videos[|videos| - 1];
      PairsOfSpec(init, listing);
      assert forall w :: w in videos <==> w in init || w == v;
    }
  }

  /** Each video is paired at most once: with distinct videos, the pairs
      have distinct videos. */
  lemma {:induction false} PairsOfDistinct(videos: seq<string>, listing: seq<string>)
    requires Distinct(videos)
    ensures DistinctVideos(PairsOf(videos, listing))
    decreases |videos|
  {
    if videos != [] {
      var init := videos[..|videos| - 1];
      var v := videos[|videos| - 1];
      PairsOfDistinct(init, listing);
      PairsOfSpec(init, listing);
      var before := PairsOf(init, listing);
      var tail := match FirstSubtitle(listing, Stem(v)) case Some(s) => [(v, s)] case None => [];
      var pairs := PairsOf(videos, listing);
      assert pairs == before + tail;
      assert v !in init by {
        forall k | 0 <= k < |init| ensures init[k] != v {
          assert init[k] == videos[k];
        }
      }
      forall i, j | 0 <= i < j < |pairs| ensures pairs[i].0 != pairs[j].0 {
        if j >= |before| {
          assert pairs[j] == tail[j - |before|];
          assert pairs[i] == before[i];
          assert before[i] in before;
        } else {
          assert pairs[i] == before[i] && pairs[j] == before[j];
        }
      }
    }
  }

  predicate Distinct(s: seq<string>) {
    forall i, j :: 0 <= i < j < |s| ==> s[i] != s[j]
  }

  predicate DistinctVideos(pairs: seq<(string, string)>) {
    forall i, j :: 0 <= i < j < |pairs| ==> pairs[i].0 != pairs[j].0
  }

  /** A directory listing names each file once, and so does its list of
      videos. */
  lemma {:induction false} VideosDistinct(listing: seq<string>)
    requires Distinct(listing)
    ensures Distinct(Videos(listing))
    decreases |listing|
  {
    if listing != [] {
      var init := listing[..|listing| - 1];
      var f := listing[|listing| - 1];
      VideosDistinct(init);
      var before := Videos(init);
      var tail := if IsVideo(f) then [f] else [];
      var videos := Videos(listing);
      assert videos == before + tail;
      assert f !in init by {
        forall k | 0 <= k < |init| ensures init[k] != f {
          assert init[k] == listing[k];
        }
      }
      forall i, j | 0 <= i < j < |videos| ensures videos[i] != videos[j] {
        if j >= |before| {
          assert videos[j] == tail[j - |before|];
          assert videos[i] == before[i];
          assert before[i] in before;
          assert before[i] in init;
        } else {
          assert videos[i] == before[i] && videos[j] == before[j];
        }
      }
    }
  }

  /** With the listing's names distinct, no video is paired twice. */
  lemma EachVideoPairedOnce(listing: seq<string>)
    requires Distinct(listing)
    ensures DistinctVideos(Pairs(listing))
  {
    VideosDistinct(listing);
    PairsOfDistinct(Videos(listing), listing);
  }

  /** A video whose exact-base subtitle is listed at position `k` is always
      paired, though possibly with an earlier-listed subtitle whose base
      merely starts with its own. */
  lemma ExactSubtitleGetsPaired(listing: seq<string>, v: string, k: nat)
    requires v in listing && IsVideo(v)
    requires k < |listing| && IsSubtitle(listing[k]) && Stem(listing[k]) == Stem(v)
    ensures exists i :: 0 <= i <= k && (v, listing[i]) in Pairs(listing) && Matches(listing[i], Stem(v))
  {
    assert Matches(listing[k], Stem(v));
    PairsOfSpec(Videos(listing), listing);
    var t := FirstSubtitle(listing, Stem(v)).value;
    var i :| 0 <= i < |listing| && listing[i] == t && Matches(t, Stem(v))
             && forall j :: 0 <= j < i ==> !Matches(listing[j], Stem(v));
    assert i <= k;
    assert (v, listing[i]) in Pairs(listing);
  }

  /** One subtitle can serve several videos: when it is the only subtitle
      listed, every video whose base name starts its own base name is paired
      with it. */
  lemma SubtitleShared(listing: seq<string>, v1: string, v2: string, s: string)
    requires v1 in listing && IsVideo(v1) && v2 in listing && IsVideo(v2)
    requires s in listing && IsSubtitle(s) && forall f :: f in listing && IsSubtitle(f) ==> f == s
    requires Stem(v1) <= Stem(s) && Stem(v2) <= Stem(s)
    ensures (v1, s) in Pairs(listing) && (v2, s) in Pairs(listing)
  {
    var k :| 0 <= k < |listing| && listing[k] == s;
    PairedWithOnlySubtitle(listing, v1, k);
    PairedWithOnlySubtitle(listing, v2, k);
  }

  lemma PairedWithOnlySubtitle(listing: seq<string>, v: string, k: nat)
    requires v in listing && IsVideo(v)
    requires k < |listing| && IsSubtitle(listing[k]) && Stem(v) <= Stem(listing[k])
    requires forall f :: f in listing && IsSubtitle(f) ==> f == listing[k]
    ensures (v, listing[k]) in Pairs(listing)
  {
    assert Matches(listing[k], Stem(v));
    var r := FirstSubtitle(listing, Stem(v));
    var i :| 0 <= i < |listing| && listing[i] == r.value && Matches(r.value, Stem(v))
             && forall j :: 0 <= j < i ==> !Matches(listing[j], Stem(v));
    assert r.value == listing[k];
    PairsOfSpec(Videos(listing), listing);
  }

  /** Python's `<` on `(video, subtitle)` tuples. */
  predicate PairLess(p: (string, string), q: (string, string)) {
    LexLess(p.0, q.0) || (p.0 == q.0 && LexLess(p.1, q.1))
  }

  predicate PairLeq(p: (string, string), q: (string, string)) {
    p == q || PairLess(p, q)
  }

  lemma PairLessTransitive(p: (string, string), q: (string, string), r: (string, string))
    requires PairLess(p, q) && PairLess(q, r)
    ensures PairLess(p, r)
  {
    if LexLess(p.0, q.0) && LexLess(q.0, r.0) {
      LexTransitive(p.0, q.0, r.0);
    } else if p.0 == q.0 && q.0 == r.0 {
      LexTransitive(p.1, q.1, r.1);
    }
  }

  lemma PairTotal(p: (string, string), q: (string, string))
    ensures PairLeq(p, q) || PairLess(q, p)
  {
    LexTotal(p.0, q.0);
    LexTotal(p.1, q.1);
  }

  lemma PairAntisymmetric(p: (string, string), q: (string, string))
    requires PairLeq(p, q) && PairLeq(q, p)
    ensures p == q
  {
    if p != q {
      PairLessTransitive(p, q, p);
      LexIrreflexive(p.0);
      LexIrreflexive(p.1);
    }
  }

  lemma PairLeqTransitive(p: (string, string), q: (string, string), r: (string, string))
    requires PairLeq(p, q) && PairLeq(q, r)
    ensures PairLeq(p, r)
  {
    if p != q && q != r {
      PairLessTransitive(p, q, r);
    }
  }

  /** Non-decreasing in tuple order. */
  predicate SortedPairs(s: seq<(string, string)>) {
    forall i, j :: 0 <= i < j < |s| ==> PairLeq(s[i], s[j])
  }

  function InsertPair(s: seq<(string, string)>, p: (string, string)): (r: seq<(string, string)>)
    requires SortedPairs(s)
    ensures SortedPairs(r)
    ensures multiset(r) == multiset(s) + multiset{p}
  {
    if s == [] then [p]
    else if PairLeq(p, s[0]) then
      BelowHead(s, p);
      LeastFirstSorted(s, p);
      [p] + s
    else
      PairTotal(p, s[0]);
      var rest := InsertPair(s[1..], p);
      assert s == [s[0]] + s[1..];
      HeadBelowRest(s, p, rest);
      LeastFirstSorted(rest, s[0]);
      [s[0]] + rest
  }

  /** What is at most the head of a sorted sequence is at most all of it. */
  lemma BelowHead(s: seq<(string, string)>, p: (string, string))
    requires SortedPairs(s) && s != [] && PairLeq(p, s[0])
    ensures forall y :: y in s ==> PairLeq(p, y)
  {
    forall y | y in s ensures PairLeq(p, y) {
      var i :| 0 <= i < |s| && s[i] == y;
      if i > 0 {
        PairLeqTransitive(p, s[0], y);
      }
    }
  }

  /** The head of a sorted sequence is at most every element of its tail
      with one larger element added. */
  lemma HeadBelowRest(s: seq<(string, string)>, p: (string, string), rest: seq<(string, string)>)
    requires SortedPairs(s) && s != [] && PairLeq(s[0], p)
    requires multiset(rest) == multiset(s[1..]) + multiset{p}
    ensures forall y :: y in rest ==> PairLeq(s[0], y)
  {
    forall y | y in rest ensures PairLeq(s[0], y) {
      assert y in multiset(rest);
      if y != p {
        assert y in multiset(s[1..]);
        var i :| 0 <= i < |s[1..]| && s[1..][i] == y;
        assert s[i + 1] == y;
      }
    }
  }

  lemma LeastFirstSorted(s: seq<(string, string)>, p: (string, string))
    requires SortedPairs(s)
    requires forall y :: y in s ==> PairLeq(p, y)
    ensures SortedPairs([p] + s)
  {
    var r := [p] + s;
    forall i, j | 0 <= i < j < |r| ensures PairLeq(r[i], r[j]) {
      assert r[j] == s[j - 1];
      if i > 0 {
        assert r[i] == s[i - 1];
      }
    }
  }

  /** `sorted(pares_encontrados)`: the pairs in ascending tuple order. */
  function SortPairs(s: seq<(string, string)>): (r: seq<(string, string)>)
    ensures SortedPairs(r)
    ensures multiset(r) == multiset(s)
  {
    if s == [] then []
    else
      var init := s[..|s| - 1];
      assert s == init + [s[|s| - 1]];
      InsertPair(SortPairs(init), s[|s| - 1])
  }

  /** A sorted arrangement of a collection of pairs is unique, so
      `SortPairs` gives the same list as any other correct sort. */
  lemma {:induction false} SortedPairsUnique(a: seq<(string, string)>, b: seq<(string, string)>)
    requires SortedPairs(a) && SortedPairs(b)
    requires multiset(a) == multiset(b)
    ensures a == b
  {
    assert |a| == |multiset(a)| == |multiset(b)| == |b|;
    if a != [] {
      SortedHeadIsLeast(a, b[0]);
      SortedHeadIsLeast(b, a[0]);
      PairAntisymmetric(a[0], b[0]);
      TailMultiset(a);
      TailMultiset(b);
      SortedPairsUnique(a[1..], b[1..]);
      assert a == [a[0]] + a[1..] && b == [b[0]] + b[1..];
    }
  }

  lemma SortedHeadIsLeast(s: seq<(string, string)>, x: (string, string))
    requires SortedPairs(s) && x in multiset(s)
    ensures PairLeq(s[0], x)
  {
    var i :| 0 <= i < |s| && s[i] == x;
    if i > 0 {
      assert PairLeq(s[0], s[i]);
    }
  }

  lemma TailMultiset(s: seq<(string, string)>)
    requires s != []
    ensures multiset(s[1..]) == multiset(s) - multiset{s[0]}
  {
    assert s == [s[0]] + s[1..];
  }

  /** The pairs in processing order, each with the base name of its video. */
  function PrefixJobs(listing: seq<string>): (jobs: seq<Job>)
    ensures |jobs| == |Pairs(listing)|
  {
    var sorted := SortPairs(Pairs(listing));
    assert |sorted| == |multiset(sorted)| == |multiset(Pairs(listing))| == |Pairs(listing)|;
    seq(|sorted|, i requires 0 <= i < |sorted| => Job(sorted[i].0, sorted[i].1, Stem(sorted[i].0)))
  }

  /** Each found pair is processed exactly once, in ascending tuple order,
      and its derived files are named after the video's base name. */
  lemma PrefixJobsSpec(listing: seq<string>)
    ensures var jobs := PrefixJobs(listing);
            var pairs := seq(|jobs|, i requires 0 <= i < |jobs| => (jobs[i].video, jobs[i].subtitle));
            multiset(pairs) == multiset(Pairs(listing))
            && SortedPairs(pairs)
            && forall i :: 0 <= i < |jobs| ==> jobs[i].base == Stem(jobs[i].video)
  {
    var jobs := PrefixJobs(listing);
    var pairs := seq(|jobs|, i requires 0 <= i < |jobs| => (jobs[i].video, jobs[i].subtitle));
    var sorted := SortPairs(Pairs(listing));
    forall i | 0 <= i < |pairs| ensures pairs[i] == sorted[i] {
      assert jobs[i] == Job(sorted[i].0, sorted[i].1, Stem(sorted[i].0));
    }
    assert pairs == sorted;
  }

  /** `processar_pasta` of processar_lote_Inteligente.py. `listing` is the
      folder's listing, `None` when the folder does not exist. */
  method ProcessFolder(dir: string, listing: Option<seq<string>>, generate: (string, string) -> bool, keepAudio: bool)
    returns (trace: seq<Action>)
    ensures listing.None? ==> trace == []
    ensures listing.Some? ==> trace == Actions(dir, PrefixJobs(listing.value), generate, keepAudio)
    ensures listing.Some? && Pairs(listing.value) == [] ==> trace == []
  {
    if listing.None? {
      return [];
    }
    var files := listing.value;
    var videos := Videos(files);
    if |videos| == 0 {
      assert Pairs(files) == [];
      return [];
    }
    var pairs := FindPairs(videos, files);
    if |pairs| == 0 {
      return [];
    }
    var sorted := SortPairs(pairs);
    var jobs := seq(|sorted|, i requires 0 <= i < |sorted| => Job(sorted[i].0, sorted[i].1, Stem(sorted[i].0)));
    trace := RunJobs(dir, jobs, generate, keepAudio);
  }
}

=== FILE: text.dfy ===
/** The few Python string operations the dubbing scripts rely on:
    `str.isspace`, `str.strip`, `str.split(sep)` and `int()` on a field,
    written over `string` (a `seq<char>` of Unicode scalar values). */
module Text {

  datatype Option<T> = None | Some(value: T)

  /** Python's `str.isspace` for one character: the Unicode characters of
      bidirectional class WS, B or S, or of general category Zs. */
  predicate IsSpace(c: char) {
    c == ' ' || ('\t' <= c <= '\r') || ('\U{1C}' <= c <= '\U{1F}')
    || c == '\U{85}' || c == '\U{A0}' || c == '\U{1680}'
    || ('\U{2000}' <= c <= '\U{200A}') || c == '\U{2028}' || c == '\U{2029}'
    || c == '\U{202F}' || c == '\U{205F}' || c == '\U{3000}'
  }

  predicate AllSpace(s: string) {
    forall i :: 0 <= i < |s| ==> IsSpace(s[i])
  }

  /** Number of leading whitespace characters. */
  function LeadingSpaces(s: string): (k: nat)
    ensures k <= |s|
    ensures forall i :: 0 <= i < k ==> IsSpace(s[i])
    ensures k < |s| ==> !IsSpace(s[k])
  {
    if s == [] || !IsSpace(s[0]) then 0 else 1 + LeadingSpaces(s[1..])
  }

  /** Index where the trailing whitespace run begins. */
  function TrailingStart(s: string): (k: nat)
    ensures k <= |s|
    ensures forall i :: k <= i < |s| ==> IsSpace(s[i])
    ensures 0 < k ==> !IsSpace(s[k - 1])
  {
    if s == [] || !IsSpace(s[|s| - 1]) then |s| else TrailingStart(s[..|s| - 1])
  }

  /** Python's `s.strip()`: `rstrip` applied to the result of `lstrip`. */
  function Strip(s: string): (r: string)
    ensures var a := LeadingSpaces(s);
            a + |r| <= |s| && r == s[a..a + |r|]
            && forall i :: a + |r| <= i < |s| ==> IsSpace(s[i])
    ensures r == [] || (!IsSpace(r[0]) && !IsSpace(r[|r| - 1]))
    ensures r == [] <==> AllSpace(s)
  {
    var left := s[LeadingSpaces(s)..];
    left[..TrailingStart(left)]
  }

  /** Python's `s.split(sep)` with an explicit one-character separator:
      `k` separators always give `k + 1` parts, empty ones included. */
  function Split(s: string, sep: char): (parts: seq<string>)
    ensures |parts| >= 1
  {
    if s == [] then [[]]
    else if s[0] == sep then [[]] + Split(s[1..], sep)
    else
      var rest := Split(s[1..], sep);
      [[s[0]] + rest[0]] + rest[1..]
  }

  /** No part holds the separator. */
  lemma {:induction false} SplitPartsHaveNoSep(s: string, sep: char)
    ensures forall k :: 0 <= k < |Split(s, sep)| ==> sep !in Split(s, sep)[k]
  {
    if s != [] {
      SplitPartsHaveNoSep(s[1..], sep);
      var rest := Split(s[1..], sep);
      if s[0] == sep {
        assert Split(s, sep) == [[]] + rest;
      } else {
        assert Split(s, sep) == [[s[0]] + rest[0]] + rest[1..];
        assert sep !in rest[0];
      }
    }
  }

  /** `sep.join(parts)`, the inverse of `Split`. */
  function Join(parts: seq<string>, sep: char): string
    requires |parts| >= 1
  {
    if |parts| == 1 then parts[0] else parts[0] + [sep] + Join(parts[1..], sep)
  }

  lemma {:induction false} JoinSplit(s: string, sep: char)
    ensures Join(Split(s, sep), sep) == s
  {
    if s == [] {
    } else if s[0] == sep {
      JoinSplit(s[1..], sep);
      assert Split(s, sep)[1..] == Split(s[1..], sep);
    } else {
      JoinSplit(s[1..], sep);
      var rest := Split(s[1..], sep);
      var parts := Split(s, sep);
      assert parts[1..] == rest[1..];
      if |rest| == 1 {
      } else {
        assert Join(rest, sep) == rest[0] + [sep] + Join(rest[1..], sep);
      }
    }
  }

  /** Splitting a string that has no separator gives that one string. */
  lemma {:induction false} SplitNoSep(a: string, sep: char)
    requires sep !in a
    ensures Split(a, sep) == [a]
  {
    if a != [] {
      SplitNoSep(a[1..], sep);
      assert [a[0]] + a[1..] == a;
    }
  }

  /** A separator after a separator-free prefix ends exactly the first part. */
  lemma {:induction false} SplitCons(a: string, sep: char, b: string)
    requires sep !in a
    ensures Split(a + [sep] + b, sep) == [a] + Split(b, sep)
  {
    if a == [] {
      assert a + [sep] + b == [sep] + b;
      assert ([sep] + b)[1..] == b;
    } else {
      SplitCons(a[1..], sep, b);
      assert (a + [sep] + b)[1..] == a[1..] + [sep] + b;
      assert [a[0]] + a[1..] == a;
    }
  }

  /** Splitting at one separator splits the two sides independently. */
  lemma {:induction false} SplitConcat(a: string, sep: char, b: string)
    ensures Split(a + [sep] + b, sep) == Split(a, sep) + Split(b, sep)
  {
    var s := a + [sep] + b;
    if a == [] {
      assert s == [sep] + b && s[1..] == b;
    } else {
      var tail := a[1..] + [sep] + b;
      assert s[0] == a[0] && s[1..] == tail;
      SplitConcat(a[1..], sep, b);
      var ra := Split(a[1..], sep);
      var rb := Split(b, sep);
      var rest := Split(tail, sep);
      assert rest == ra + rb;
      if a[0] == sep {
        assert Split(s, sep) == [[]] + (ra + rb);
        assert Split(a, sep) == [[]] + ra;
        SeqAssoc([[]], ra, rb);
      } else {
        var first := [a[0]] + ra[0];
        assert rest[0] == ra[0] && rest[1..] == ra[1..] + rb;
        assert Split(s, sep) == [first] + (ra[1..] + rb);
        assert Split(a, sep) == [first] + ra[1..];
        SeqAssoc([first], ra[1..], rb);
      }
    }
  }

  lemma SeqAssoc(a: seq<string>, b: seq<string>, c: seq<string>)
    ensures a + (b + c) == a + b + c
  {
  }

  lemma {:induction false} SplitJoin(parts: seq<string>, sep: char)
    requires |parts| >= 1
    requires forall k :: 0 <= k < |parts| ==> sep !in parts[k]
    ensures Split(Join(parts, sep), sep) == parts
  {
    if |parts| == 1 {
      SplitNoSep(parts[0], sep);
    } else {
      SplitJoin(parts[1..], sep);
      SplitCons(parts[0], sep, Join(parts[1..], sep));
      assert [parts[0]] + parts[1..] == parts;
    }
  }

  predicate IsDigit(c: char) {
    '0' <= c <= '9'
  }

  /** A field Python's `int()` accepts, as far as this model goes:
      one or more ASCII decimal digits. */
  predicate IsDigits(s: string) {
    |s| > 0 && forall i :: 0 <= i < |s| ==> IsDigit(s[i])
  }

  function DigitValue(c: char): nat
    requires IsDigit(c)
  {
    c as int - '0' as int
  }

  function DigitChar(d: nat): (c: char)
    requires d < 10
    ensures IsDigit(c) && DigitValue(c) == d
  {
    ('0' as int + d) as char
  }

  /** Decimal value of a digit string, read most significant digit first. */
  function NatValue(s: string): nat
    requires forall i :: 0 <= i < |s| ==> IsDigit(s[i])
  {
    if s == [] then 0 else NatValue(s[..|s| - 1]) * 10 + DigitValue(s[|s| - 1])
  }

  /** Python's `int(field)` on the fields this model admits; `None` stands for
      the `ValueError` it raises otherwise. */
  function ParseNat(s: string): (r: Option<nat>)
    ensures r.Some? <==> IsDigits(s)
  {
    if IsDigits(s) then Some(NatValue(s)) else None
  }

  /** Shortest decimal representation of `n`. */
  function Show(n: nat): (s: string)
    ensures IsDigits(s)
  {
    if n < 10 then [DigitChar(n)] else Show(n / 10) + [DigitChar(n % 10)]
  }

  function Zeros(k: nat): (s: string)
    ensures |s| == k && forall i :: 0 <= i < k ==> s[i] == '0'
  {
    if k == 0 then [] else Zeros(k - 1) + ['0']
  }

  /** `s` left-padded with zeros to at least `width` characters. */
  function PadLeft(s: string, width: nat): (r: string)
    ensures |r| >= width
  {
    if |s| >= width then s else Zeros(width - |s|) + s
  }

  lemma {:induction false} NatValueShow(n: nat)
    ensures NatValue(Show(n)) == n
  {
    if n >= 10 {
      NatValueShow(n / 10);
      var s := Show(n);
      assert s[..|s| - 1] == Show(n / 10);
    }
  }

  lemma {:induction false} NatValueZeros(k: nat)
    ensures NatValue(Zeros(k)) == 0
  {
    if k > 0 {
      NatValueZeros(k - 1);
      assert Zeros(k)[..k - 1] == Zeros(k - 1);
    }
  }

  /** Leading zeros do not change a decimal value. */
  lemma {:induction false} NatValueLeadingZeros(k: nat, s: string)
    requires IsDigits(s) || s == []
    ensures var z := Zeros(k) + s;
            (forall i :: 0 <= i < |z| ==> IsDigit(z[i])) && NatValue(z) == NatValue(s)
  {
    var z := Zeros(k) + s;
    if s == [] {
      assert z == Zeros(k);
      NatValueZeros(k);
    } else {
      var init := s[..|s| - 1];
      NatValueLeadingZeros(k, init);
      assert z[..|z| - 1] == Zeros(k) + init;
    }
  }

  /** Padding the decimal form of `n` reads back as `n`. */
  lemma PaddedShow(n: nat, width: nat)
    ensures IsDigits(PadLeft(Show(n), width))
    ensures NatValue(PadLeft(Show(n), width)) == n
  {
    var s := Show(n);
    NatValueShow(n);
    if |s| < width {
      NatValueLeadingZeros(width - |s|, s);
    }
  }
}

=== FILE: timestamps.dfy ===
/** `parse_time` of gerador_de_dublagem.py: a WebVTT cue timestamp
    (`hh:mm:ss.ttt` or `mm:ss.ttt`, section 4 of the W3C WebVTT
    specification) turned into a time on the playback clock.

    Times are exact integer milliseconds: the source's float
    `h * 3600 + m * 60 + s + ms / 1000.0` seconds is our value divided
    by 1000. */
module Timestamps {
  import opened Text

  const MsPerSecond: nat := 1000
  const MsPerMinute: nat := 60_000
  const MsPerHour: nat := 3_600_000

  /** The time `h:m:s` plus `ms` milliseconds. */
  function Millis(h: nat, m: nat, s: nat, ms: nat): nat {
    h * MsPerHour + m * MsPerMinute + s * MsPerSecond + ms
  }

  /** The conversion with its failure made explicit: `None` is the
      `ValueError` (a non-numeric field) or `IndexError` (no `.` in the
      seconds field) the source catches. The hour field is read only when
      there are exactly three colon-separated parts; the minute field is
      always the next-to-last part; the fraction is read as an integer
      number of milliseconds, whatever its length. */
  function TryParseTime(s: string): Option<nat> {
    var parts := Split(s, ':');
    var secondsParts := Split(parts[|parts| - 1], '.');
    var h := if |parts| == 3 then ParseNat(parts[0]) else Some(0);
    var m := if |parts| >= 2 then ParseNat(parts[|parts| - 2]) else Some(0);
    var sec := ParseNat(secondsParts[0]);
    var frac := if |secondsParts| >= 2 then ParseNat(secondsParts[1]) else None;
    if h.Some? && m.Some? && sec.Some? && frac.Some? then
      Some(Millis(h.value, m.value, sec.value, frac.value))
    else
      None
  }

  /** `parse_time`: a malformed timestamp reads as 0. */
  function ParseTime(s: string): nat {
    match TryParseTime(s)
    case Some(ms) => ms
    case None => 0
  }

  /** Digit strings hold neither separator. */
  lemma DigitsHaveNoSeparator(s: string)
    requires IsDigits(s)
    ensures ':' !in s && '.' !in s
  {
  }

  /** How `Split` sees `sec.frac` with numeric fields. */
  lemma SecondsFieldSplit(sec: string, frac: string)
    requires IsDigits(sec) && IsDigits(frac)
    ensures ':' !in sec + "." + frac
    ensures Split(sec + "." + frac, '.') == [sec, frac]
  {
    DigitsHaveNoSeparator(sec);
    DigitsHaveNoSeparator(frac);
    SplitCons(sec, '.', frac);
    SplitNoSep(frac, '.');
  }

  /** `parse_time` of a timestamp split into `H`, `M` and `S.F` whose
      fields read as `hv`, `mv`, `sv` and `fv`. */
  lemma ParseThreeFields(s: string, h: string, m: string, tail: string, sec: string, frac: string,
                         hv: nat, mv: nat, sv: nat, fv: nat)
    requires Split(s, ':') == [h, m, tail] && Split(tail, '.') == [sec, frac]
    requires ParseNat(h) == Some(hv) && ParseNat(m) == Some(mv)
    requires ParseNat(sec) == Some(sv) && ParseNat(frac) == Some(fv)
    ensures TryParseTime(s) == Some(Millis(hv, mv, sv, fv))
  {
    var parts := Split(s, ':');
    assert parts[|parts| - 1] == tail && parts[|parts| - 2] == m && parts[0] == h;
  }

  /** `parse_time` of a timestamp split into `M` and `S.F` whose fields
      read as `mv`, `sv` and `fv`. */
  lemma ParseTwoFields(s: string, m: string, tail: string, sec: string, frac: string, mv: nat, sv: nat, fv: nat)
    requires Split(s, ':') == [m, tail] && Split(tail, '.') == [sec, frac]
    requires ParseNat(m) == Some(mv) && ParseNat(sec) == Some(sv) && ParseNat(frac) == Some(fv)
    ensures TryParseTime(s) == Some(Millis(0, mv, sv, fv))
  {
    var parts := Split(s, ':');
    assert parts[|parts| - 1] == tail && parts[|parts| - 2] == m;
  }

  /** How `Split` sees `H:M:S.F` with colon-free fields. */
  lemma ThreeFieldSplit(h: string, m: string, sec: string, frac: string)
    requires ':' !in h && ':' !in m && ':' !in sec && ':' !in frac
    ensures Split(h + ":" + m + ":" + sec + "." + frac, ':') == [h, m, sec + "." + frac]
  {
    var tail := sec + "." + frac;
    assert ':' !in tail;
    var front := h + ":" + m + ":";
    ConcatAssoc(front + sec, ".", frac);
    ConcatAssoc(front, sec, "." + frac);
    ConcatAssoc(sec, ".", frac);
    assert h + ":" + m + ":" + sec + "." + frac == front + tail;
    ConcatAssoc(h + ":" + m, ":", tail);
    ConcatAssoc(h + ":", m, ":" + tail);
    ConcatAssoc(m, ":", tail);
    assert front + tail == h + [':'] + (m + [':'] + tail);
    SplitNoSep(tail, ':');
    SplitCons(m, ':', tail);
    SplitCons(h, ':', m + [':'] + tail);
  }

  lemma ConcatAssoc(a: string, b: string, c: string)
    ensures a + b + c == a + (b + c)
  {
  }

  /** The three-field form `H:M:S.F` with numeric fields. */
  lemma ParseHourMinuteSecond(h: string, m: string, sec: string, frac: string)
    requires IsDigits(h) && IsDigits(m) && IsDigits(sec) && IsDigits(frac)
    ensures TryParseTime(h + ":" + m + ":" + sec + "." + frac).Some?
    ensures ParseTime(h + ":" + m + ":" + sec + "." + frac)
            == Millis(NatValue(h), NatValue(m), NatValue(sec), NatValue(frac))
  {
    DigitsHaveNoSeparator(h);
    DigitsHaveNoSeparator(m);
    SecondsFieldSplit(sec, frac);
    DigitsHaveNoSeparator(sec);
    DigitsHaveNoSeparator(frac);
    ThreeFieldSplit(h, m, sec, frac);
    ParseThreeFields(h + ":" + m + ":" + sec + "." + frac, h, m, sec + "." + frac, sec, frac,
                     NatValue(h), NatValue(m), NatValue(sec), NatValue(frac));
  }

  /** The two-field form `M:S.F`: the hour term is 0. */
  lemma ParseMinuteSecond(m: string, sec: string, frac: string)
    requires IsDigits(m) && IsDigits(sec) && IsDigits(frac)
    ensures TryParseTime(m + ":" + sec + "." + frac).Some?
    ensures ParseTime(m + ":" + sec + "." + frac) == Millis(0, NatValue(m), NatValue(sec), NatValue(frac))
  {
    var tail := sec + "." + frac;
    var s := m + ":" + sec + "." + frac;
    DigitsHaveNoSeparator(m);
    SecondsFieldSplit(sec, frac);
    assert s == m + [':'] + tail;
    SplitNoSep(tail, ':');
    SplitCons(m, ':', tail);
    ParseTwoFields(s, m, tail, sec, frac, NatValue(m), NatValue(sec), NatValue(frac));
  }

  /** A seconds field without `.` is the `IndexError` case: 0. */
  lemma MissingFractionIsZero(s: string)
    requires var parts := Split(s, ':'); '.' !in parts[|parts| - 1]
    ensures TryParseTime(s) == None && ParseTime(s) == 0
  {
    var parts := Split(s, ':');
    SplitNoSep(parts[|parts| - 1], '.');
  }

  /** A non-numeric seconds field is the `ValueError` case: 0. */
  lemma NonNumericSecondsIsZero(prefix: string, sec: string, frac: string)
    requires ':' !in sec && '.' !in sec && ':' !in frac
    requires !IsDigits(sec)
    ensures ParseTime(prefix + ":" + sec + "." + frac) == 0
  {
    var s := prefix + ":" + sec + "." + frac;
    var tail := sec + "." + frac;
    assert ':' !in tail;
    assert s == prefix + [':'] + tail;
    AppendSplit(prefix, ':', tail);
    SplitNoSep(tail, ':');
    assert tail == sec + ['.'] + frac;
    SplitCons(sec, '.', frac);
  }

  /** A non-numeric hour field in the three-field form `H:M:T` is a
      `ValueError`: 0, whatever the other fields hold. */
  lemma NonNumericHourIsZero(h: string, m: string, tail: string)
    requires ':' !in h && ':' !in m && ':' !in tail
    requires !IsDigits(h)
    ensures TryParseTime(h + ":" + m + ":" + tail) == None
    ensures ParseTime(h + ":" + m + ":" + tail) == 0
  {
    var s := h + ":" + m + ":" + tail;
    ConcatAssoc(h + ":", m, ":" + tail);
    ConcatAssoc(h + ":" + m, ":", tail);
    ConcatAssoc(m, ":", tail);
    assert s == h + [':'] + (m + [':'] + tail);
    SplitNoSep(tail, ':');
    SplitCons(m, ':', tail);
    SplitCons(h, ':', m + [':'] + tail);
  }

  /** A non-numeric minute field, the one before the last `:`, is a
      `ValueError`: 0, whatever the fields before it and the seconds field
      hold. */
  lemma NonNumericMinuteIsZero(front: string, m: string, tail: string)
    requires ':' !in m && ':' !in tail
    requires !IsDigits(m)
    ensures TryParseTime(front + ":" + m + ":" + tail) == None
    ensures ParseTime(front + ":" + m + ":" + tail) == 0
  {
    LastTwoFields(front, m, tail);
  }

  /** The same in the two-field form `M:T`. */
  lemma NonNumericLeadingMinuteIsZero(m: string, tail: string)
    requires ':' !in m && ':' !in tail
    requires !IsDigits(m)
    ensures TryParseTime(m + ":" + tail) == None
    ensures ParseTime(m + ":" + tail) == 0
  {
    SplitNoSep(tail, ':');
    SplitCons(m, ':', tail);
  }

  /** How `Split` sees the last two fields of `front:M:T`. */
  lemma LastTwoFields(front: string, m: string, tail: string)
    requires ':' !in m && ':' !in tail
    ensures var parts := Split(front + ":" + m + ":" + tail, ':');
            parts == Split(front, ':') + [m, tail]
  {
    var s := front + ":" + m + ":" + tail;
    var last := m + [':'] + tail;
    ConcatAssoc(front + ":", m, ":" + tail);
    ConcatAssoc(front + ":" + m, ":", tail);
    ConcatAssoc(m, ":", tail);
    assert s == front + [':'] + last;
    SplitNoSep(tail, ':');
    SplitCons(m, ':', tail);
    SplitConcat(front, ':', last);
    var parts := Split(s, ':');
    assert parts == Split(front, ':') + [m, tail];
  }

  /** A field holding the separator splits into at least two parts. */
  lemma {:induction false} SplitAtSeparator(a: string, sep: char)
    requires sep in a
    ensures |Split(a, sep)| >= 2
  {
    if a[0] != sep {
      assert sep in a[1..];
      SplitAtSeparator(a[1..], sep);
    }
  }

  /** With four or more colon fields the hour is never read: `front:M:S.F`
      with a colon inside `front` reads as `M:S.F`, whatever `front` holds. */
  lemma ParseManyFields(front: string, m: string, sec: string, frac: string)
    requires ':' in front
    requires IsDigits(m) && IsDigits(sec) && IsDigits(frac)
    ensures TryParseTime(front + ":" + m + ":" + sec + "." + frac)
            == Some(Millis(0, NatValue(m), NatValue(sec), NatValue(frac)))
  {
    var tail := sec + "." + frac;
    DigitsHaveNoSeparator(m);
    SecondsFieldSplit(sec, frac);
    ConcatAssoc(front + ":" + m + ":" + sec, ".", frac);
    ConcatAssoc(front + ":" + m + ":", sec, "." + frac);
    ConcatAssoc(sec, ".", frac);
    assert front + ":" + m + ":" + sec + "." + frac == front + ":" + m + ":" + tail;
    LastTwoFields(front, m, tail);
    SplitAtSeparator(front, ':');
  }

  /** The colon-free form `S.F`: it converts exactly when both fields are
      numeric, and then hours and minutes are 0. */
  lemma ParseSecondsOnly(sec: string, frac: string)
    requires ':' !in sec && ':' !in frac && '.' !in sec && '.' !in frac
    ensures TryParseTime(sec + "." + frac).Some? <==> IsDigits(sec) && IsDigits(frac)
    ensures IsDigits(sec) && IsDigits(frac) ==>
              ParseTime(sec + "." + frac) == Millis(0, 0, NatValue(sec), NatValue(frac))
  {
    var s := sec + "." + frac;
    assert s == sec + ['.'] + frac;
    assert ':' !in s;
    SplitNoSep(s, ':');
    SplitCons(sec, '.', frac);
    SplitNoSep(frac, '.');
  }

  /** Only the first two `.` fields of the seconds field are read: anything
      after a second `.` is ignored. */
  lemma ExtraDotIgnored(prefix: string, sec: string, frac: string, more: string)
    requires ':' !in sec && ':' !in frac && ':' !in more && '.' !in sec && '.' !in frac
    ensures TryParseTime(prefix + ":" + sec + "." + frac + "." + more)
            == TryParseTime(prefix + ":" + sec + "." + frac)
  {
    var short := sec + "." + frac;
    var long := short + "." + more;
    var p := Split(prefix, ':');
    assert Split(prefix + ":" + sec + "." + frac, ':') == p + [short] by {
      assert prefix + ":" + sec + "." + frac == prefix + [':'] + short;
      assert ':' !in short;
      SplitConcat(prefix, ':', short);
      SplitNoSep(short, ':');
    }
    assert Split(prefix + ":" + sec + "." + frac + "." + more, ':') == p + [long] by {
      assert prefix + ":" + sec + "." + frac + "." + more == prefix + [':'] + long;
      assert ':' !in long;
      SplitConcat(prefix, ':', long);
      SplitNoSep(long, ':');
    }
    DotFields(sec, frac, more);
  }

  /** How `Split` sees `S.F` and `S.F.X` with dot-free `S` and `F`. */
  lemma DotFields(sec: string, frac: string, more: string)
    requires '.' !in sec && '.' !in frac
    ensures Split(sec + "." + frac, '.') == [sec, frac]
    ensures Split(sec + "." + frac + "." + more, '.') == [sec, frac] + Split(more, '.')
  {
    assert sec + "." + frac == sec + ['.'] + frac;
    SplitCons(sec, '.', frac);
    SplitNoSep(frac, '.');
    var rest := frac + ['.'] + more;
    assert sec + "." + frac + "." + more == sec + ['.'] + rest by {
      ConcatAssoc(sec + "." + frac, ".", more);
      ConcatAssoc(sec + ".", frac, "." + more);
      ConcatAssoc(frac, ".", more);
    }
    TwoDotFields(sec, frac, more);
  }

  lemma TwoDotFields(sec: string, frac: string, more: string)
    requires '.' !in sec && '.' !in frac
    ensures Split(sec + ['.'] + (frac + ['.'] + more), '.') == [sec, frac] + Split(more, '.')
  {
    var tail := Split(more, '.');
    calc {
      Split(sec + ['.'] + (frac + ['.'] + more), '.');
      { SplitCons(sec, '.', frac + ['.'] + more); }
      [sec] + Split(frac + ['.'] + more, '.');
      { SplitCons(frac, '.', more); }
      [sec] + ([frac] + tail);
      { SeqAssoc([sec], [frac], tail); }
      [sec, frac] + tail;
    }
  }

  /** The same for the colon-free form `S.F`. */
  lemma ExtraDotIgnoredSecondsOnly(sec: string, frac: string, more: string)
    requires ':' !in sec && ':' !in frac && ':' !in more && '.' !in sec && '.' !in frac
    ensures TryParseTime(sec + "." + frac + "." + more) == TryParseTime(sec + "." + frac)
  {
    assert ':' !in sec + "." + frac && ':' !in sec + "." + frac + "." + more;
    SplitNoSep(sec + "." + frac, ':');
    SplitNoSep(sec + "." + frac + "." + more, ':');
    DotFields(sec, frac, more);
  }

  /** A non-numeric fraction field is a `ValueError`: 0. */
  lemma NonNumericFractionIsZero(prefix: string, sec: string, frac: string)
    requires ':' !in sec && '.' !in sec && ':' !in frac && '.' !in frac
    requires !IsDigits(frac)
    ensures TryParseTime(prefix + ":" + sec + "." + frac) == None
    ensures ParseTime(prefix + ":" + sec + "." + frac) == 0
  {
    var s := prefix + ":" + sec + "." + frac;
    var tail := sec + "." + frac;
    assert ':' !in tail;
    assert s == prefix + [':'] + tail;
    AppendSplit(prefix, ':', tail);
    SplitNoSep(tail, ':');
    assert tail == sec + ['.'] + frac;
    SplitCons(sec, '.', frac);
    SplitNoSep(frac, '.');
  }

  /** A prefix ending in a separator adds parts only at the front, so the
      last part of the remainder stays last. */
  lemma {:induction false} AppendSplit(a: string, sep: char, b: string)
    ensures |Split(a + [sep] + b, sep)| > |Split(b, sep)|
    ensures Split(a + [sep] + b, sep)[|Split(a + [sep] + b, sep)| - 1] == Split(b, sep)[|Split(b, sep)| - 1]
  {
    var s := a + [sep] + b;
    if a == [] {
      assert s == [sep] + b && s[1..] == b;
    } else {
      var rest := a[1..] + [sep] + b;
      assert s[0] == a[0] && s[1..] == rest;
      AppendSplit(a[1..], sep, b);
      var r := Split(rest, sep);
      if a[0] == sep {
        assert Split(s, sep) == [[]] + r;
      } else {
        assert Split(s, sep) == [[a[0]] + r[0]] + r[1..];
      }
    }
  }

  /** Canonical WebVTT rendering `hh:mm:ss.ttt` of a time in milliseconds
      (the inverse direction, used to state the round trip). */
  function FormatTime(t: nat): string {
    var secs := t / 1000;
    var mins := secs / 60;
    var hours := mins / 60;
    PadLeft(Show(hours), 2) + ":" + PadLeft(Show(mins % 60), 2) + ":"
    + PadLeft(Show(secs % 60), 2) + "." + PadLeft(Show(t % 1000), 3)
  }

  /** Every canonical timestamp is read back exactly. */
  lemma ParseFormatRoundTrip(t: nat)
    ensures ParseTime(FormatTime(t)) == t
  {
    var secs := t / 1000;
    var mins := secs / 60;
    var hours := mins / 60;
    PaddedShow(hours, 2);
    PaddedShow(mins % 60, 2);
    PaddedShow(secs % 60, 2);
    PaddedShow(t % 1000, 3);
    ParseHourMinuteSecond(PadLeft(Show(hours), 2), PadLeft(Show(mins % 60), 2),
                          PadLeft(Show(secs % 60), 2), PadLeft(Show(t % 1000), 3));
  }
}
